=== FILE: README.md ===
# Learning-center seat selector, in Dafny

A model of the logic core of the learning-center seat selector. It is a
browser client for a university library's seat-booking service, plus the
Node script that obtains the booking token through the university's
single-sign-on (SSO) server. The model covers:

- **The token handshake** (`TokenFlow`, over `Scrape`). The script fetches
  the SSO login page and scrapes two values out of its HTML. It takes the
  `SESSION` cookie from the joined `Set-Cookie` headers, and encrypts the
  password and the captcha payload under the scraped key. It then posts the
  nine-field login form, and judges the credentials by the first
  `SOURCEID_TGC` cookie of the jar. It sends that cookie back on the OAuth
  redirect and takes `token=` out of the URL it lands on. The cipher is a
  parameter that may fail: `createCipheriv` throws for a key that does not
  decode to 16 bytes, and the flow then stops with `CipherFailed` before the
  POST. Every stage that sends a request fails with `RequestFailed(stage)`
  exactly when the reply is not accepted (status outside 200..399).
  Both pattern matches are modelled with JavaScript's leftmost-match
  semantics. One is `KEY=([^;&]+)`, greedy and able to cross line breaks. The
  other is the lazy `"marker">(.*?)<`, which stops at the first `<` and never
  crosses a line terminator.
- **The seat query** (`SeatQuery`):
  - two-digit padding;
  - the 30 half-hour time slots from 08:00 to 22:30;
  - the request body;
  - the fold of the answer into a map from space id to status, resolving a
    seat by name first and by code second;
  - the message handling, and the clearing of the map when the floor
    changes.
- **The seat index** (`SeatIndex`, over the generic `Indexing` fold). The
  seat list of a floor becomes four maps, by space name, space code, map
  name and space id. A seat enters a map only when that key is non-empty, and
  later seats overwrite earlier ones.
- **Reservation** (`SeatReservation`):
  - the status of the selected seat;
  - the guards of a submission: a seat, status exactly 0, and a date, start
    and end;
  - the body sent, and the success flag and message.
- **History paging** (`ReservationHistory`):
  - the page count, which is at least 1;
  - the fetch and what a failure leaves unchanged;
  - the guarded previous/next moves, which keep the page in range.
- **The auth store** (`AuthStore`):
  - the login flow, which trims the username, persists the token, hands it
    to the HTTP client and clears the password;
  - start-up from storage, and logout.
- **The HTTP client** (`HttpClient`): the trimmed token the client keeps,
  and the request interceptor that adds a `Token` header only when that
  token is non-empty.
- **Error text** (`ErrorMessage`) and **the floor store** (`FloorStore`).

### Modelling conventions

- **The server as inputs.** Every server answer is an input. An `ApiReply`
  is either `Rejected(message)` (axios threw; `message` is the error's
  message) or `Answered(code, msg, body)`. Each async operation is a function
  from the state before it and the reply to a `Step`: the state after it,
  plus the request it sent, if any.
- **Storage.** Browser local storage is a `map<string, string>`.
- **Strings.** Strings are sequences of code points. JavaScript's falsy
  empty string is `""`. An optional field of an answer that is absent is
  either `""` or an `Option`.
- **Numbers.** Numbers are unbounded integers, or `real` for seat positions. JavaScript's doubles are not modelled (see "Left out").

### Source behaviour worth noting

- **Token trimming.** The token is trimmed by `setSeatApiToken` only. The
  stored token and the store's `token` are kept untrimmed, as in
  `src/stores/auth.ts`.
- **The `extractKV` key** is spliced into a regular expression unescaped.
  The only keys used (`SESSION`, `token`) contain no metacharacters, so the
  model matches the key as a plain substring. The regular expression is not
  anchored, so `XSESSION=abc` yields `abc` for the key `SESSION`
  (`Scrape.SubstringKeyMatches`).
- **A URL that contains `token=`** can still fail in `extractKV` when no
  value character follows (`Scrape.EmptyValueIsNotFound`). The model keeps
  the two errors apart.

## Model

| member | source | states |
|---|---|---|
| Scrape.FirstKeyValue | src/script/getToken.js:16-17 | The leftmost index where `key=` is followed by a `[^;&]` character, and `None` exactly when there is none |
| Scrape.ExtractKV | src/script/getToken.js:15-20 | A found value is non-empty |
| Scrape.ExtractKVIsLeftmost | src/script/getToken.js:15-20 | `extractKV` fails iff no `key=` is followed by a value character; otherwise it returns the greedy value after the leftmost such occurrence |
| Scrape.ExtractedValueShape | src/script/getToken.js:15-20 | A returned value is non-empty, has no `;` or `&`, and the text contains `key=` followed by it |
| Scrape.SubstringKeyMatches | src/script/getToken.js:16 | The unanchored pattern reads `SESSION` out of `XSESSION=abc` |
| Scrape.EmptyValueIsNotFound | src/script/getToken.js:100-104 | A URL containing `token=` with nothing after it still throws "key not found" |
| Scrape.CaptureAt | src/script/getToken.js:53-54 | The capture at a match has no `<` or line terminator; marker, capture and `<` occur there in a row |
| Scrape.FirstCapture | src/script/getToken.js:53-54 | The leftmost index where the lazy marker pattern matches, `None` exactly when none does |
| Scrape.LazyCapture | src/script/getToken.js:53-54 | A capture never contains `<` |
| Scrape.LazyCaptureIsLeftmost | src/script/getToken.js:53-55 | The marker match fails iff no marker is followed by `<` before a line break; otherwise it captures after the leftmost such marker |
| Scrape.CaptureIsShortest | src/script/getToken.js:53-54 | The capture stops at the first `<` after the marker and holds no line break |
| TokenFlow.Accepted | src/script/getToken.js:45 | A reply resolves iff its status is in 200..399, and then yields its payload |
| TokenFlow.Join | src/script/getToken.js:62 | `Array.join`: no parts give `""`; otherwise the length is the last part's offset plus its length |
| TokenFlow.JoinLayout | src/script/getToken.js:62 | In the joined string each part sits at its offset, and every part but the last is followed by the separator |
| TokenFlow.JoinedSetCookie | src/script/getToken.js:62 | Present `Set-Cookie` headers are joined with `"; "`; missing ones read as the empty string |
| TokenFlow.SingleHeaderSession | src/script/getToken.js:62 | A single `Set-Cookie` header is searched as it is |
| TokenFlow.LoginForm | src/script/getToken.js:66-76 | The form has the nine fields, in the source's order |
| TokenFlow.LoginFormValues | src/script/getToken.js:66-76 | By name, the form carries the username, the execution and crypto keys, the fixed fields, and the two ciphertexts |
| TokenFlow.FieldValueAt | src/script/getToken.js:66-76 | A field whose name does not occur earlier is the value found by name |
| TokenFlow.FirstCookieIndex | src/script/getToken.js:86-87 | `None` iff no cookie has the name; otherwise an index of a cookie with it, and no earlier cookie has it |
| TokenFlow.FindCookie | src/script/getToken.js:86-87 | `Array.find`: `None` iff no cookie has the name; otherwise the first cookie of the jar with that name |
| TokenFlow.TokenFromLanding | src/script/getToken.js:97-104 | Fails with "not in URL" iff the final URL (or the requested URL when none) lacks `token=`; when `extractKV(url, "token")` finds a value, that value is returned |
| TokenFlow.FallbackUrlHasNoToken | src/script/getToken.js:97-101 | The requested authorize URL holds no `token=`, so a redirect without `responseUrl` always ends with "not in URL" |
| TokenFlow.AfterLogin | src/script/getToken.js:85-104 | Wrong credentials, with no request, iff the jar has no `SOURCEID_TGC`. Otherwise one authorize request carries `SOURCEID_TGC=<value>`; it fails the authorize stage iff its reply is not accepted, else the landing decides |
| TokenFlow.PostAndContinue | src/script/getToken.js:78-83 | The first request is the login POST with `Cookie: SESSION=<value>`. The login stage fails iff its reply is not accepted; otherwise the jar it returns decides the rest |
| TokenFlow.ScrapePage | src/script/getToken.js:53-63 | The marker error iff either lazy match fails. With both found, success iff `SESSION` is in the joined cookies; success carries both captures and that value |
| TokenFlow.EncryptedForm | src/script/getToken.js:22-31 | Fails with `CipherFailed` iff either encryption under the scraped key fails; otherwise the form with both ciphertexts |
| TokenFlow.AfterScrape | src/script/getToken.js:66-83 | A cipher failure ends the flow with no further request; otherwise the login POST with the encrypted form follows. Never a scraping error |
| TokenFlow.AfterPage | src/script/getToken.js:53-83 | A scraping error ends the flow with no further request; otherwise encryption and the POST follow |
| TokenFlow.AcquireToken | src/script/getToken.js:35-104 | Empty credentials fail iff username or password is empty, with no request. A page failure iff the page reply is not accepted. The page request comes first, and the number of requests is fixed by the outcome |
| TokenFlow.LoginRequest | src/script/getToken.js:74-83 | The login POST a run reaches carries `SESSION=<value>` scraped from the page |
| TokenFlow.AuthorizeRequest | src/script/getToken.js:91-95 | The authorize request exists only once the login POST exists |
| TokenFlow.AuthorizeCarriesTgc | src/script/getToken.js:86-95 | The authorize request carries `SOURCEID_TGC=<value>` of the first such cookie in the jar of the accepted POST |
| TokenFlow.ScrapeStageDecides | src/script/getToken.js:53-63 | Once the page arrived, the flow ends with a scraping error iff scraping the page gives that error |
| TokenFlow.MissingSetCookieFails | src/script/getToken.js:62-63 | With both markers found but no `Set-Cookie`, the flow stops at the `SESSION` step after one request |
| TokenFlow.CipherStageDecides | src/script/getToken.js:22-31 | `CipherFailed` iff credentials, page and scraping succeed and an encryption fails; then only the page was requested |
| TokenFlow.LoginStageDecides | src/script/getToken.js:78-83 | The POST is reached iff a second request is made, and is that request; the login stage fails iff its reply is not accepted |
| TokenFlow.FlowAfterLogin | src/script/getToken.js:78-104 | After an accepted POST the run is the page request, the POST, and what the jar leads to |
| TokenFlow.TgcDecidesCredentials | src/script/getToken.js:78-88 | After an accepted POST, wrong credentials iff no `SOURCEID_TGC` cookie is in the jar, whatever the POST answered |
| TokenFlow.AuthorizeStageDecides | src/script/getToken.js:91-104 | The authorize request is reached iff three requests are made, in the order page, POST, authorize. The authorize stage fails iff its reply is not accepted; otherwise the landing decides |
| TokenFlow.HappyPath | src/script/getToken.js:97-104 | When every request is accepted, the flow returns the `token` value of the landed URL, and fails with "not in URL" iff that URL lacks `token=` |
| TokenFlow.TokenComesFromFinalUrl | src/script/getToken.js:97-104 | A returned token comes from the landed URL after three requests; the URL contains `token=`, and the token is non-empty with no `;` or `&` |
| Indexing.LastWins | src/utils/seatData.ts:23-28 | The fold's map has exactly the non-empty keys of the list, and each key holds the value of the last element with it |
| Indexing.EntryIsLast | src/utils/seatData.ts:23-28 | Every entry of the fold comes from the last element carrying its key |
| Indexing.LastOccurrence | src/utils/seatData.ts:23-28 | Every non-empty key has a last element carrying it |
| SeatIndex.IndexBy | src/utils/seatData.ts:23-28 | Seats with a non-empty field are indexed by it; entries are seats of the list under their own field value; the last seat wins |
| SeatIndex.BuildLookup | src/utils/seatData.ts:18-35 | In each of the four maps, a seat's key is present iff that field is non-empty, and every entry is stored under its own field |
| SeatQuery.Pad | src/composables/useSeatQuery.ts:10 | At least two characters; exactly two for 0..99; a leading `0` only below 10 |
| SeatQuery.PadRoundTrip | src/composables/useSeatQuery.ts:10 | A padded non-negative number (the source pads only months, days and hours) is all digits and parses back to the number |
| SeatQuery.PadTwoDigits | src/composables/useSeatQuery.ts:10 | Below 100 the padding is the tens digit and then the units digit |
| SeatQuery.SlotsOfHour | src/composables/useSeatQuery.ts:35-38 | Each hour contributes `HH:00` and `HH:30` at positions 2(h-8) and 2(h-8)+1 |
| SeatQuery.LastSlot | src/composables/useSeatQuery.ts:40 | The hand-appended `22:30` is the 30th slot |
| SeatQuery.TimeOptions | src/composables/useSeatQuery.ts:33-42 | Exactly 30 entries, the i-th being the i-th half-hour slot from 08:00 |
| SeatQuery.SlotTime | src/composables/useSeatQuery.ts:33-42 | Slot i reads `HH:MM` and is 480 + 30i minutes after midnight |
| SeatQuery.SlotsDistinct | src/composables/useSeatQuery.ts:33-42 | The slots start at 08:00, end at 22:30 and are all different |
| SeatQuery.RemoveFirst | src/composables/useSeatQuery.ts:28 | `replace` with a one-character pattern drops only the first occurrence, and leaves a string without it unchanged |
| SeatQuery.QueryPayload | src/composables/useSeatQuery.ts:25-31 | Begin and end are the date, a space and the time; `floorLike` is the floor's digit; no parent; region 1 |
| SeatQuery.InitialQueryState | src/composables/useSeatQuery.ts:16-22 | The date given, start and end at the 12:00 and 13:00 entries of the slot list, one hour apart; idle, no error, empty map |
| SeatQuery.FloorLikeIsDigit | src/composables/useSeatQuery.ts:28 | `floorLike` is `4` or `5` |
| SeatQuery.Resolve | src/composables/useSeatQuery.ts:72-77 | A known non-empty name decides the seat; otherwise a known non-empty code; otherwise no seat |
| SeatQuery.SpaceIdOf | src/composables/useSeatQuery.ts:72-78 | The resolved seat's space id, or `""` when no seat resolves |
| SeatQuery.StatusMap | src/composables/useSeatQuery.ts:68-81 | Keys are exactly the non-empty resolved space ids; each holds the status of the last entry resolving to it |
| SeatQuery.HandleQuery | src/composables/useSeatQuery.ts:44-89 | Incomplete input gives only the message `请完整选择日期与时间` and no request. Otherwise the body and token header are fixed; a failure gives an empty map and `msg`, else `查询失败`; success gives the status fold; the flag ends false |
| SeatQuery.OnFloorChange | src/composables/useSeatQuery.ts:91-96 | A floor change empties the status map and changes nothing else |
| ApiTypes.FailureText | src/composables/useSeatQuery.ts:64-65 | A rejected request shows its error message; an answer shows `msg` when non-empty, otherwise the fallback |
| SeatReservation.SelectedSeatStatus | src/composables/useSeatReservation.ts:24-28 | A status exists iff a seat with a non-empty space id is selected and the map has that id, and it is the mapped value |
| SeatReservation.ResetReservationState | src/composables/useSeatReservation.ts:30-34 | Not submitting, no message, no success |
| SeatReservation.CanSubmit | src/composables/useSeatReservation.ts:37-39 | Submission is allowed iff a seat with a non-empty space id is selected, the map holds that id with status 0, and date, start and end are non-empty |
| SeatReservation.SubmitReservation | src/composables/useSeatReservation.ts:36-61 | A request goes out iff seat, status 0, date, start and end all hold, carrying those values. Success iff the code is `0`, with `预约成功`; else `msg` or `预约失败`. The flag ends false; otherwise nothing changes |
| SeatReservation.OnlyFreeSeatsSubmitted | src/composables/useSeatReservation.ts:37-38 | A seat whose status is not 0 is never submitted |
| ReservationHistory.InitialHistory | src/composables/useReservationHistory.ts:6-11 | Page 1 of pages of 10, no records, no total, idle and no error; the page is within range |
| ReservationHistory.TotalPages | src/composables/useReservationHistory.ts:14-17 | The least page count of at least 1 whose pages hold `total` records |
| ReservationHistory.FetchHistory | src/composables/useReservationHistory.ts:19-39 | The current page and size are sent. Success takes the list (or `[]`) and the total (or the list's length) and clears the message. Failure keeps records and total and shows `msg` or `查询失败`; loading ends false |
| ReservationHistory.PrevPage | src/composables/useReservationHistory.ts:41-45 | At page 1 or below nothing happens; otherwise the page drops by one and a refetch follows |
| ReservationHistory.NextPage | src/composables/useReservationHistory.ts:47-51 | At the last page or beyond nothing happens; otherwise the page rises by one and a refetch follows |
| ReservationHistory.NavigationKeepsPageInRange | src/composables/useReservationHistory.ts:41-51 | Both moves keep the page within 1..totalPages |
| ReservationHistory.GoPrevPage | src/composables/useReservationHistory.ts:41-45 | At page 1 or below nothing happens and nothing is sent; otherwise the result is exactly `fetchHistory` on the previous page, so records, total, message and loading follow the reply |
| ReservationHistory.GoNextPage | src/composables/useReservationHistory.ts:47-51 | At the last page or beyond nothing happens and nothing is sent; otherwise the result is exactly `fetchHistory` on the next page, so records, total, message and loading follow the reply |
| AuthStore.IsLoggedIn | src/stores/auth.ts:13 | Logged in iff the token is neither absent nor empty |
| AuthStore.StoredToken | src/stores/tokenStore.ts:9-11 | The stored token, present iff its key is in storage |
| AuthStore.InitFromStorage | src/stores/auth.ts:15-18 | The store takes the stored token and the client gets its trimmed form |
| AuthStore.Login | src/stores/auth.ts:20-41 | Sends the trimmed username and raw password. A non-empty token is stored, kept and handed to the client, and the password is cleared; otherwise nothing changes but the message (`未获取到 token` or the error). Loading ends false |
| AuthStore.Logout | src/stores/auth.ts:43-47 | Logged out with no token; the token key is removed and other keys are untouched; the client token is empty; student id, password, message and loading flag are unchanged |
| AuthStore.LoginPersists | src/stores/auth.ts:20-41 | After a successful login the user is logged in, and a restart restores the same token and client token |
| AuthStore.FailedLoginKeepsStatus | src/stores/auth.ts:20-41 | A failed login leaves the logged-in status as it was |
| AuthStore.LogoutPersists | src/stores/auth.ts:43-47 | A restart after logout is logged out with an empty client token |
| AuthStore.InitLoggedIn | src/stores/auth.ts:13-18 | Logged in after start-up iff a non-empty token is stored |
| HttpClient.SetSeatApiToken | src/api/client/http.ts:8-10 | `null` clears the token; otherwise the kept token is the trimmed input |
| HttpClient.SetSeatApiTokenIdempotent | src/api/client/http.ts:8-10 | Setting the kept token again changes nothing |
| HttpClient.InjectToken | src/api/client/http.ts:31-44 | No token leaves the request unchanged; otherwise `Token` is set and every other header is kept as it was |
| HttpClient.InjectTokenIdempotent | src/api/client/http.ts:31-44 | Intercepting twice equals intercepting once |
| ErrorMessage.GetErrorMessage | src/api/client/error.ts:5-12 | Axios errors always give a non-empty text; an `Error` gives its message; anything else gives `请求失败` |
| ErrorMessage.AxiosMessagePriority | src/api/client/error.ts:8 | For Axios errors the text is the first non-empty of the response `msg`, the error message, and `请求失败` |
| ErrorMessage.ServerMessageWins | src/api/client/error.ts:8 | A non-empty server message is always what is shown |
| FloorStore.InitialFloor | src/stores/floor.ts:7-9 | Start at 5F iff exactly `5F` is stored under `learning_center_floor`, otherwise 4F |
| FloorStore.InitFloorStore | src/stores/floor.ts:7-9 | The store starts on the floor read from storage and keeps the storage as it is |
| FloorStore.SetFloor | src/stores/floor.ts:11-14 | The floor becomes the value, its name is stored under the floor key, and other keys are untouched |
| FloorStore.SetFloorRoundTrip | src/stores/floor.ts:7-14 | A restart shows the floor set last |
| FloorStore.StartedFloorIsStable | src/stores/floor.ts:7-14 | Writing back the floor read at start-up does not change it |
| Text.Trim | src/api/client/http.ts:9 | The result has no white space at either end and is the input with only white space removed around it |
| Text.AbsentWithoutChar | src/script/getToken.js:100 | A pattern cannot occur in a string whose head lacks one of its characters and whose tail is too short to hold it and the rest |
| Text.TrimIdempotent | src/api/client/http.ts:9 | Trimming twice equals trimming once |
| Text.DigitsRoundTrip | src/composables/useSeatQuery.ts:10 | The decimal rendering of a non-negative integer, which is `String(n)` for the integers JavaScript renders exactly, is all digits and parses back to n |

## Left out

- The AES-128-ECB encryption of the password and captcha payload is the parameter `enc`, a `Cipher`. Only its possible failure is modelled (a key that does not decode to 16 bytes); no property of the ciphertext is.
- HTTP itself is not modelled: the cookie jar, redirect following, the User-Agent header, timeouts and base URLs. The three SSO exchanges are inputs, `SsoServer`, and the jar is the cookie list the server gives back after the POST.
- The URL encoding of the login form (`URLSearchParams.toString`) is left out: the form is its ordered field list.
- The clock is left out: `lastQueryTime`, and the default date (taken as the parameter `today` of `SeatQuery.InitialQueryState`).
- `Number(...)` conversions and `NaN` are left out. Statuses and totals are integers in the answer, and `Math.ceil` over non-numbers is not modelled.
- `ReservationHistory.TotalPages` requires `pageSize > 0`. The source fixes it at 10 and never changes it.
- `ReservationHistory.NavigationKeepsPageInRange` holds while the total stays put. A fetch that shrinks the total can leave the page beyond the new last page, and the source does not correct that either.
- The `'…请稍后重试'` fallbacks of the composables and the `'登录失败，请重试'` fallback of the store are left out. They apply only to thrown values that are not `Error`s, and the requests here reject with `Error`s.
- Answer fields of the wrong type are not modelled; every field is a string, a list or absent. In the source a truthy non-string token passes the check in `login` and is stored before `setSeatApiToken` throws on `.trim`. Non-string seat names and codes are looked up through `String(...)`. A non-array list is read as an absent one, which the source also turns into `[]`.
- Text.Digits: `String(n)` is modelled as the exact decimal rendering. JavaScript writes integers from 10^21 on in exponent notation (`1e+21`) and does not hold integers above 2^53 exactly; `pad` only ever receives months, days and hours, far below either bound.
- The seat lookups and the `nextMap` status map are plain JavaScript objects. The model uses maps without inherited keys. In the source, a name such as `toString` or `constructor` finds an inherited function, which is truthy, so `Resolve`'s fallback to the code never runs and the item is skipped. A seat named `__proto__` sets the object's prototype instead of adding a key. `SeatIndex.IndexBy`, `SeatQuery.Resolve` and `SeatQuery.StatusMap` treat such names as ordinary keys.
- `AxiosHeaders` matching header names without regard to case is left out; header names are compared exactly.
- `loadSeatData`'s dynamic import of the floor's JSON file and the per-floor promise caches are left out: `HandleQuery` takes the floor's seat list as a parameter.
- `src/script/handleSeatData.js`, the router, the API wrapper modules and the view components are not part of this model.
- The response interceptor that rethrows an Axios error as `new Error(getErrorMessage(error))` is modelled only as the message of `ApiReply.Rejected`.

=== FILE: auth_store.dfy ===
/** The `auth` store together with the `tokenStore` it persists through. */
module AuthStore {
  import opened Wrappers
  import opened ApiTypes
  import HttpClient
  import Text

  const TokenKey := "learning_center_token"
  const NoTokenMessage := "未获取到 token"

  /** The store's fields, the browser's local storage, and the token the seat
      client keeps. */
  datatype AuthState = AuthState(
    token: Option<string>, studentId: string, password: string,
    errorMessage: string, isLoading: bool,
    storage: map<string, string>, seatToken: string)

  /** `isLoggedIn`: a token is held and it is not empty. */
  function IsLoggedIn(s: AuthState): (r: bool)
    ensures r <==> s.token != None && s.token != Some("")
  {
    s.token.Some? && s.token.value != ""
  }

  /** `tokenStore.get`. */
  function StoredToken(storage: map<string, string>): (t: Option<string>)
    ensures t.Some? <==> TokenKey in storage
    ensures t.Some? ==> t.value == storage[TokenKey]
  {
    if TokenKey in storage then Some(storage[TokenKey]) else None
  }

  /** `initFromStorage`: take the stored token and hand it to the seat client. */
  function InitFromStorage(s: AuthState): (r: AuthState)
    ensures r.token == StoredToken(s.storage)
    ensures r.seatToken == HttpClient.SetSeatApiToken(r.token)
    ensures r.storage == s.storage && r.password == s.password && r.errorMessage == s.errorMessage
    ensures r.studentId == s.studentId && r.isLoading == s.isLoading
  {
    var t := StoredToken(s.storage);
    s.(token := t, seatToken := HttpClient.SetSeatApiToken(t))
  }

  /** Whether `reply` carries a token the store accepts: present and non-empty. */
  predicate Delivers(reply: LoginReply) {
    reply.LoginAnswered? && reply.token.Some? && reply.token.value != ""
  }

  /** `login`, given the answer of the token service to the request it sends. */
  function Login(s: AuthState, username: string, userPassword: string, reply: LoginReply): (r: Step<AuthState, LoginPayload>)
    ensures r.sent == Some(LoginPayload(Text.Trim(username), userPassword))
    ensures !r.state.isLoading && r.state.studentId == s.studentId
    ensures Delivers(reply) ==>
              && r.state.token == reply.token
              && r.state.storage == s.storage[TokenKey := reply.token.value]
              && r.state.seatToken == HttpClient.SetSeatApiToken(reply.token)
              && r.state.password == "" && r.state.errorMessage == ""
    ensures !Delivers(reply) ==>
              && r.state.token == s.token && r.state.storage == s.storage
              && r.state.seatToken == s.seatToken && r.state.password == s.password
              && r.state.errorMessage == (if reply.LoginRejected? then reply.message else NoTokenMessage)
  {
    var payload := LoginPayload(Text.Trim(username), userPassword);
    var started := s.(errorMessage := "", isLoading := true);
    var after :=
      if reply.LoginRejected? then started.(errorMessage := reply.message)
      else if !Delivers(reply) then started.(errorMessage := NoTokenMessage)
      else
        var t := reply.token.value;
        started.(storage := s.storage[TokenKey := t], token := Some(t),
                 seatToken := HttpClient.SetSeatApiToken(Some(t)), password := "");
    Step(after.(isLoading := false), Some(payload))
  }

  /** `logout`: forget the token in storage, in the store and in the client. */
  function Logout(s: AuthState): (r: AuthState)
    ensures !IsLoggedIn(r)
    ensures TokenKey !in r.storage
    ensures forall k :: k != TokenKey ==> (k in r.storage <==> k in s.storage)
    ensures forall k :: k in r.storage ==> r.storage[k] == s.storage[k]
    ensures r.seatToken == ""
    ensures r.token == None
    ensures r.studentId == s.studentId && r.password == s.password
    ensures r.errorMessage == s.errorMessage && r.isLoading == s.isLoading
  {
    s.(storage := s.storage - {TokenKey}, token := None, seatToken := HttpClient.SetSeatApiToken(None))
  }

  /** A successful login logs in, and a later start-up restores the same token. */
  lemma LoginPersists(s: AuthState, username: string, userPassword: string, reply: LoginReply)
    requires Delivers(reply)
    ensures IsLoggedIn(Login(s, username, userPassword, reply).state)
    ensures InitFromStorage(Login(s, username, userPassword, reply).state).token == reply.token
    ensures InitFromStorage(Login(s, username, userPassword, reply).state).seatToken
            == Login(s, username, userPassword, reply).state.seatToken
  {
  }

  /** A failed login leaves the logged-in status as it was. */
  lemma FailedLoginKeepsStatus(s: AuthState, username: string, userPassword: string, reply: LoginReply)
    requires !Delivers(reply)
    ensures IsLoggedIn(Login(s, username, userPassword, reply).state) == IsLoggedIn(s)
  {
  }

  /** After logging out, a later start-up is logged out too, with the
      client's token cleared. */
  lemma LogoutPersists(s: AuthState)
    ensures !IsLoggedIn(InitFromStorage(Logout(s)))
    ensures InitFromStorage(Logout(s)).seatToken == ""
  {
  }

  /** A start-up is logged in exactly when a non-empty token is stored. */
  lemma InitLoggedIn(s: AuthState)
    ensures IsLoggedIn(InitFromStorage(s)) <==> TokenKey in s.storage && s.storage[TokenKey] != ""
  {
  }
}

=== FILE: error_message.dfy ===
/** `getErrorMessage`: the one text shown for any failed request. */
module ErrorMessage {
  /** What a failed call can throw: an Axios error (the `msg` of its response
      body, `""` when there is no response, body or `msg`, and its own
      `message`), a plain `Error`, or any other value. */
  datatype Thrown =
    | AxiosError(responseMsg: string, message: string)
    | PlainError(message: string)
    | OtherValue

  const RequestFailed := "请求失败"

  function GetErrorMessage(error: Thrown): (m: string)
    ensures error.AxiosError? ==> m != ""
    ensures error.PlainError? ==> m == error.message
    ensures error.OtherValue? ==> m == RequestFailed
  {
    match error
    case AxiosError(responseMsg, message) =>
      if responseMsg != "" then responseMsg
      else if message != "" then message
      else RequestFailed
    case PlainError(message) => message
    case OtherValue => RequestFailed
  }

  /** The first non-empty text of `candidates`, or `fallback`. */
  function FirstNonEmpty(candidates: seq<string>, fallback: string): string {
    if candidates == [] then fallback
    else if candidates[0] != "" then candidates[0]
    else FirstNonEmpty(candidates[1..], fallback)
  }

  /** For an Axios error the server's message wins, then the error's own,
      then the fixed fallback. */
  lemma AxiosMessagePriority(responseMsg: string, message: string)
    ensures GetErrorMessage(AxiosError(responseMsg, message)) == FirstNonEmpty([responseMsg, message], RequestFailed)
  {
    assert [responseMsg, message][1..] == [message];
    assert [message][1..] == [];
    assert FirstNonEmpty([message], RequestFailed) == if message != "" then message else RequestFailed;
  }

  /** The server's non-empty message is what the user sees; otherwise it is
      one of the error's own message or the fallback. */
  lemma ServerMessageWins(responseMsg: string, message: string)
    ensures responseMsg != "" ==> GetErrorMessage(AxiosError(responseMsg, message)) == responseMsg
    ensures responseMsg == "" ==>
              GetErrorMessage(AxiosError(responseMsg, message)) == message
              || GetErrorMessage(AxiosError(responseMsg, message)) == RequestFailed
  {
  }
}

=== FILE: floor_store.dfy ===
/** The `floor` store: the chosen floor, remembered in local storage. */
module FloorStore {
  import opened SeatTypes

  const FloorKey := "learning_center_floor"

  datatype FloorState = FloorState(currentFloor: Floor, storage: map<string, string>)

  /** The floor at start-up: 5F only when exactly `"5F"` is stored, 4F for
      anything else or nothing. */
  function InitialFloor(storage: map<string, string>): (f: Floor)
    ensures f == F5 <==> FloorKey in storage && storage[FloorKey] == FloorName(F5)
  {
    if FloorKey in storage && storage[FloorKey] == "5F" then F5 else F4
  }

  function InitFloorStore(storage: map<string, string>): (s: FloorState)
    ensures s.storage == storage
    ensures s.currentFloor == InitialFloor(storage)
  {
    FloorState(InitialFloor(storage), storage)
  }

  /** `setFloor`: switch floors and remember the choice. */
  function SetFloor(s: FloorState, value: Floor): (r: FloorState)
    ensures r.currentFloor == value
    ensures FloorKey in r.storage && r.storage[FloorKey] == FloorName(value)
    ensures forall k :: k != FloorKey ==> (k in r.storage <==> k in s.storage)
    ensures forall k :: k != FloorKey && k in r.storage ==> r.storage[k] == s.storage[k]
  {
    FloorState(value, s.storage[FloorKey := FloorName(value)])
  }

  /** The floor chosen last is the floor the next start-up shows. */
  lemma SetFloorRoundTrip(s: FloorState, value: Floor)
    ensures InitFloorStore(SetFloor(s, value).storage).currentFloor == value
  {
  }

  /** A store started from storage it wrote itself keeps that floor. */
  lemma StartedFloorIsStable(storage: map<string, string>)
    ensures InitialFloor(SetFloor(InitFloorStore(storage), InitialFloor(storage)).storage) == InitialFloor(storage)
  {
  }
}

=== FILE: http_client.dfy ===
/** The seat-system HTTP client: the module-level token it keeps and the
    request interceptor that puts that token in a `Token` header. */
module HttpClient {
  import opened Wrappers
  import opened Text

  const TokenHeader := "Token"

  /** `setSeatApiToken`: the token the client keeps, trimmed; `null` clears it. */
  function SetSeatApiToken(token: Option<string>): (kept: string)
    ensures IsTrimmed(kept)
    ensures token.None? ==> kept == ""
    ensures token.Some? ==> kept == Trim(token.value)
  {
    match token
    case None => ""
    case Some(t) => Trim(t)
  }

  /** Setting the token the client already keeps changes nothing. */
  lemma SetSeatApiTokenIdempotent(token: Option<string>)
    ensures SetSeatApiToken(Some(SetSeatApiToken(token))) == SetSeatApiToken(token)
  {
    if token.Some? {
      TrimIdempotent(token.value);
    }
  }

  /** An outgoing request: its URL and its headers, `None` when it has none yet. */
  datatype RequestConfig = RequestConfig(url: string, headers: Option<map<string, string>>)

  /** The request interceptor of the seat client. Both of the source's
      branches (set on an existing header object, or build a new one from the
      old entries) give the same headers: the old ones plus `Token`. */
  function InjectToken(config: RequestConfig, seatToken: string): (r: RequestConfig)
    ensures seatToken == "" ==> r == config
    ensures r.url == config.url
    ensures seatToken != "" ==>
              && r.headers.Some?
              && TokenHeader in r.headers.value && r.headers.value[TokenHeader] == seatToken
              && (forall h :: h != TokenHeader ==>
                    (h in r.headers.value <==> config.headers.Some? && h in config.headers.value))
              && (forall h :: h != TokenHeader && h in r.headers.value ==>
                    r.headers.value[h] == config.headers.value[h])
  {
    if seatToken == "" then config
    else config.(headers := Some(config.headers.GetOr(map[])[TokenHeader := seatToken]))
  }

  /** Passing a request through the interceptor twice is the same as once. */
  lemma InjectTokenIdempotent(config: RequestConfig, seatToken: string)
    ensures InjectToken(InjectToken(config, seatToken), seatToken) == InjectToken(config, seatToken)
  {
    if seatToken != "" {
      var once := InjectToken(config, seatToken);
      assert once.headers.value[TokenHeader := seatToken] == once.headers.value;
    }
  }
}

=== FILE: indexing.dfy ===
/** The "last write wins" fold both `loadSeatLookup` and `handleQuery` use:
    walking a list in order and, for each element whose key is non-empty
    (truthy), storing a value under that key. */
module Indexing {

  /** Element `i` is the last one in the list with its (non-empty) key. */
  predicate IsLast<T>(xs: seq<T>, key: T -> string, i: int)
    requires 0 <= i < |xs|
  {
    && key(xs[i]) != ""
    && forall j :: i < j < |xs| ==> key(xs[j]) != key(xs[i])
  }

  /** Every key of `m` is the non-empty key of some element. */
  ghost predicate Sound<T, V>(xs: seq<T>, key: T -> string, m: map<string, V>) {
    forall k :: k in m ==> k != "" && exists i :: 0 <= i < |xs| && key(xs[i]) == k
  }

  /** Every element with a non-empty key has that key in `m`. */
  ghost predicate Complete<T, V>(xs: seq<T>, key: T -> string, m: map<string, V>) {
    forall i :: 0 <= i < |xs| && key(xs[i]) != "" ==> key(xs[i]) in m
  }

  /** Each key holds the value of the last element carrying it. */
  ghost predicate Latest<T, V>(xs: seq<T>, key: T -> string, val: T -> V, m: map<string, V>) {
    forall i :: 0 <= i < |xs| && IsLast(xs, key, i) ==> key(xs[i]) in m && m[key(xs[i])] == val(xs[i])
  }

  /** `if (key(x)) m[key(x)] = val(x)`: one iteration of the fold. */
  function Put<T, V>(m: map<string, V>, x: T, key: T -> string, val: T -> V): map<string, V> {
    if key(x) != "" then m[key(x) := val(x)] else m
  }

  lemma PutKeepsSound<T, V>(xs: seq<T>, key: T -> string, val: T -> V, m: map<string, V>)
    requires |xs| > 0 && Sound(xs[..|xs| - 1], key, m)
    ensures Sound(xs, key, Put(m, xs[|xs| - 1], key, val))
  {
    var init := xs[..|xs| - 1];
    var m' := Put(m, xs[|xs| - 1], key, val);
    forall k | k in m' ensures k != "" && exists i :: 0 <= i < |xs| && key(xs[i]) == k {
      if k !in m {
        assert key(xs[|xs| - 1]) == k;
      } else {
        var i :| 0 <= i < |init| && key(init[i]) == k;
        assert xs[i] == init[i];
      }
    }
  }

  lemma PutKeepsComplete<T, V>(xs: seq<T>, key: T -> string, val: T -> V, m: map<string, V>)
    requires |xs| > 0 && Complete(xs[..|xs| - 1], key, m)
    ensures Complete(xs, key, Put(m, xs[|xs| - 1], key, val))
  {
    var init := xs[..|xs| - 1];
    forall i | 0 <= i < |xs| && key(xs[i]) != "" ensures key(xs[i]) in Put(m, xs[|xs| - 1], key, val) {
      if i < |init| {
        assert xs[i] == init[i];
      }
    }
  }

  lemma PutKeepsLatest<T, V>(xs: seq<T>, key: T -> string, val: T -> V, m: map<string, V>)
    requires |xs| > 0 && Latest(xs[..|xs| - 1], key, val, m)
    ensures Latest(xs, key, val, Put(m, xs[|xs| - 1], key, val))
  {
    var init, x := xs[..|xs| - 1], xs[|xs| - 1];
    var m' := Put(m, x, key, val);
    forall i | 0 <= i < |xs| && IsLast(xs, key, i) ensures key(xs[i]) in m' && m'[key(xs[i])] == val(xs[i]) {
      if i < |init| {
        assert xs[i] == init[i];
        assert key(x) != key(xs[i]);
        assert IsLast(init, key, i) by {
          forall j | i < j < |init| ensures key(init[j]) != key(init[i]) {
            assert init[j] == xs[j];
          }
        }
      }
    }
  }

  /** The fold over the whole list. */
  function LastWins<T, V>(xs: seq<T>, key: T -> string, val: T -> V): (m: map<string, V>)
    ensures Sound(xs, key, m)
    ensures Complete(xs, key, m)
    ensures Latest(xs, key, val, m)
    decreases |xs|
  {
    if |xs| == 0 then map[]
    else
      var m := LastWins(xs[..|xs| - 1], key, val);
      PutKeepsSound(xs, key, val, m);
      PutKeepsComplete(xs, key, val, m);
      PutKeepsLatest(xs, key, val, m);
      Put(m, xs[|xs| - 1], key, val)
  }

  /** Every non-empty key has a last element carrying it, at or after any element that does. */
  lemma {:induction false} LastOccurrence<T>(xs: seq<T>, key: T -> string, i: int)
    requires 0 <= i < |xs| && key(xs[i]) != ""
    ensures exists j :: i <= j < |xs| && IsLast(xs, key, j) && key(xs[j]) == key(xs[i])
    decreases |xs| - i
  {
    if !IsLast(xs, key, i) {
      var j :| i < j < |xs| && key(xs[j]) == key(xs[i]);
      LastOccurrence(xs, key, j);
    }
  }

  /** Sound and Latest together fix every entry: each key holds the value of
      the last element carrying it. */
  lemma EntryIsLast<T, V>(xs: seq<T>, key: T -> string, val: T -> V, k: string)
    ensures k in LastWins(xs, key, val) ==>
              exists i :: 0 <= i < |xs| && IsLast(xs, key, i) && key(xs[i]) == k
                          && LastWins(xs, key, val)[k] == val(xs[i])
  {
    if k in LastWins(xs, key, val) {
      var i :| 0 <= i < |xs| && key(xs[i]) == k;
      LastOccurrence(xs, key, i);
    }
  }
}

=== FILE: reservation_history.dfy ===
/** `useReservationHistory`: paging over the user's reservations. */
module ReservationHistory {
  import opened Wrappers
  import opened ApiTypes

  /** One reservation as listed; the model keeps the fields it shows. */
  datatype HistoryRecord = HistoryRecord(id: int, date: string, beginTime: string, endTime: string)

  /** The answer body: `dataList` (`None` when it is not an array) and `total`. */
  datatype HistoryBody = HistoryBody(dataList: Option<seq<HistoryRecord>>, total: Option<int>)

  datatype HistoryState = HistoryState(
    records: seq<HistoryRecord>, isLoading: bool, errorMessage: string,
    currentPage: int, pageSize: int, total: int)

  const HistoryFailedMessage := "查询失败"

  /** The initial state: no records, page 1 of pages of 10. */
  function InitialHistory(): (r: HistoryState)
    ensures r.pageSize > 0 && PageInRange(r)
    ensures r.currentPage == 1 && r.pageSize == 10
    ensures r.records == [] && !r.isLoading && r.errorMessage == "" && r.total == 0
  {
    HistoryState([], false, "", 1, 10, 0)
  }

  /** `totalPages`: `Math.ceil(total / pageSize)`, or 1 when that is not
      positive. It is the least page count of at least 1 whose pages hold
      `total` records. */
  function TotalPages(total: int, pageSize: int): (n: int)
    requires pageSize > 0
    ensures n >= 1
    ensures total <= n * pageSize
    ensures n == 1 || (n - 1) * pageSize < total
  {
    var pages := (total + pageSize - 1) / pageSize;
    assert pages * pageSize <= total + pageSize - 1 < (pages + 1) * pageSize;
    if pages > 0 then pages else 1
  }

  /** `fetchHistory`, given the answer to the request it sends. */
  function FetchHistory(s: HistoryState, reply: ApiReply<HistoryBody>): (r: Step<HistoryState, HistoryPayload>)
    ensures r.sent == Some(HistoryPayload(s.currentPage, s.pageSize))
    ensures !r.state.isLoading
    ensures r.state.currentPage == s.currentPage && r.state.pageSize == s.pageSize
    ensures !reply.Ok() ==>
              && r.state.records == s.records && r.state.total == s.total
              && r.state.errorMessage == FailureText(reply, HistoryFailedMessage)
    ensures reply.Ok() ==>
              && r.state.errorMessage == ""
              && r.state.records == reply.body.dataList.GetOr([])
              && r.state.total == reply.body.total.GetOr(|r.state.records|)
  {
    var started := s.(errorMessage := "", isLoading := true);
    var after :=
      if !reply.Ok() then started.(errorMessage := FailureText(reply, HistoryFailedMessage))
      else
        var records := reply.body.dataList.GetOr([]);
        started.(records := records, total := reply.body.total.GetOr(|records|));
    Step(after.(isLoading := false), Some(HistoryPayload(s.currentPage, s.pageSize)))
  }

  /** The page is within `[1, totalPages]`. */
  predicate PageInRange(s: HistoryState)
    requires s.pageSize > 0
  {
    1 <= s.currentPage <= TotalPages(s.total, s.pageSize)
  }

  /** The guard and page change of `goPrevPage`; `true` when it moved (and so refetches). */
  function PrevPage(s: HistoryState): (r: (HistoryState, bool))
    ensures s.currentPage <= 1 ==> r == (s, false)
    ensures s.currentPage > 1 ==> r.1 && r.0 == s.(currentPage := s.currentPage - 1)
  {
    if s.currentPage <= 1 then (s, false) else (s.(currentPage := s.currentPage - 1), true)
  }

  /** The guard and page change of `goNextPage`; `true` when it moved (and so refetches). */
  function NextPage(s: HistoryState): (r: (HistoryState, bool))
    requires s.pageSize > 0
    ensures s.currentPage >= TotalPages(s.total, s.pageSize) ==> r == (s, false)
    ensures s.currentPage < TotalPages(s.total, s.pageSize) ==> r.1 && r.0 == s.(currentPage := s.currentPage + 1)
  {
    if s.currentPage >= TotalPages(s.total, s.pageSize) then (s, false)
    else (s.(currentPage := s.currentPage + 1), true)
  }

  /** Navigation keeps the page in range while the total stays put. */
  lemma NavigationKeepsPageInRange(s: HistoryState)
    requires s.pageSize > 0 && PageInRange(s)
    ensures PageInRange(PrevPage(s).0) && PageInRange(NextPage(s).0)
  {
  }

  /** `goPrevPage`: step back one page and refetch, unless on the first page. */
  function GoPrevPage(s: HistoryState, reply: ApiReply<HistoryBody>): (r: Step<HistoryState, HistoryPayload>)
    ensures s.currentPage <= 1 ==> r == Step(s, None)
    ensures s.currentPage > 1 ==> r.sent == Some(HistoryPayload(s.currentPage - 1, s.pageSize))
                                  && r.state.currentPage == s.currentPage - 1
    ensures s.currentPage > 1 ==> r == FetchHistory(s.(currentPage := s.currentPage - 1), reply)
  {
    var (moved, refetch) := PrevPage(s);
    if refetch then FetchHistory(moved, reply) else Step(s, None)
  }

  /** `goNextPage`: step forward one page and refetch, unless on the last page. */
  function GoNextPage(s: HistoryState, reply: ApiReply<HistoryBody>): (r: Step<HistoryState, HistoryPayload>)
    requires s.pageSize > 0
    ensures s.currentPage >= TotalPages(s.total, s.pageSize) ==> r == Step(s, None)
    ensures s.currentPage < TotalPages(s.total, s.pageSize) ==>
              r.sent == Some(HistoryPayload(s.currentPage + 1, s.pageSize)) && r.state.currentPage == s.currentPage + 1
    ensures s.currentPage < TotalPages(s.total, s.pageSize) ==>
              r == FetchHistory(s.(currentPage := s.currentPage + 1), reply)
  {
    var (moved, refetch) := NextPage(s);
    if refetch then FetchHistory(moved, reply) else Step(s, None)
  }
}

=== FILE: scrape.dfy ===
/** The two pattern matches the token flow uses to scrape values out of
    response text: `extractKV`, the regular expression `KEY=([^;&]+)`, and the
    lazy marker match `"<marker>">(.*?)<`. Both take JavaScript's
    `String.prototype.match` semantics: the leftmost position where the whole
    pattern matches decides the result. */
module Scrape {
  import opened Wrappers
  import opened Text

  /** A character of `[^;&]`. */
  predicate IsValueChar(c: char) {
    c != ';' && c != '&'
  }

  /** `key=` followed by at least one value character starts at index `i`. */
  predicate KeyValueAt(text: string, key: string, i: int) {
    && OccursAt(text, key + "=", i)
    && i + |key| + 1 < |text|
    && IsValueChar(text[i + |key| + 1])
  }

  /** The greedy `([^;&]+)` capture after the `key=` found at `i`. */
  function ValueAt(text: string, key: string, i: int): (v: string)
    requires KeyValueAt(text, key, i)
    ensures |v| > 0
    ensures forall k :: 0 <= k < |v| ==> IsValueChar(v[k])
  {
    var p := i + |key| + 1;
    text[p..p + RunLength(text, p, IsValueChar)]
  }

  /** The leftmost index where `key=` and a value character start. */
  function FirstKeyValue(text: string, key: string): (r: Option<int>)
    ensures r.None? <==> forall i :: !KeyValueAt(text, key, i)
    ensures r.Some? ==> KeyValueAt(text, key, r.value)
    ensures r.Some? ==> forall j :: 0 <= j < r.value ==> !KeyValueAt(text, key, j)
  {
    var r := FindFirst(i => KeyValueAt(text, key, i), 0, |text|);
    assert r.None? ==> forall i :: !KeyValueAt(text, key, i) by {
      if r.None? {
        forall i ensures !KeyValueAt(text, key, i) {
          if 0 <= i < |text| {
            assert !(i => KeyValueAt(text, key, i))(i);
          }
        }
      }
    }
    assert r.Some? ==> forall j :: 0 <= j < r.value ==> !KeyValueAt(text, key, j) by {
      if r.Some? {
        forall j | 0 <= j < r.value ensures !KeyValueAt(text, key, j) {
          assert !(i => KeyValueAt(text, key, i))(j);
        }
      }
    }
    r
  }

  /** `extractKV(rawText, key)`: `None` is the thrown "key not found" error.
      The key is matched as a plain substring. */
  function ExtractKV(text: string, key: string): (r: Option<string>)
    ensures r.Some? ==> |r.value| > 0
  {
    match FirstKeyValue(text, key)
    case None => None
    case Some(i) => Some(ValueAt(text, key, i))
  }

  /** `extractKV` fails exactly when no `key=` is followed by a value
      character, and otherwise returns the greedy value after the leftmost
      such occurrence. */
  lemma ExtractKVIsLeftmost(text: string, key: string)
    ensures ExtractKV(text, key).None? <==> forall i :: !KeyValueAt(text, key, i)
    ensures ExtractKV(text, key).Some? ==>
      exists i :: && KeyValueAt(text, key, i)
                  && (forall j :: 0 <= j < i ==> !KeyValueAt(text, key, j))
                  && ExtractKV(text, key).value == ValueAt(text, key, i)
  {
    if ExtractKV(text, key).Some? {
      var i := FirstKeyValue(text, key).value;
      assert ExtractKV(text, key).value == ValueAt(text, key, i);
    }
  }

  /** A found key means the text contains `key=`. */
  lemma FoundKeyIsContained(text: string, key: string)
    ensures ExtractKV(text, key).Some? ==> Contains(text, key + "=")
  {
    if ExtractKV(text, key).Some? {
      var i := FirstKeyValue(text, key).value;
      assert OccursAt(text, key + "=", i);
    }
  }

  /** Whatever `extractKV` returns is non-empty, free of `;` and `&`, and was
      preceded in the text by `key=`. */
  lemma ExtractedValueShape(text: string, key: string)
    requires ExtractKV(text, key).Some?
    ensures var v := ExtractKV(text, key).value;
            && |v| > 0
            && (forall k :: 0 <= k < |v| ==> v[k] != ';' && v[k] != '&')
            && Contains(text, key + "=" + v)
  {
    var v := ExtractKV(text, key).value;
    var i := FirstKeyValue(text, key).value;
    var p := i + |key| + 1;
    assert text[i..p + |v|] == key + "=" + v;
    assert OccursAt(text, key + "=" + v, i);
  }

  /** A character `.` may match before the closing `<`. */
  predicate IsCaptureChar(c: char) {
    c != '<' && !IsLineTerminator(c)
  }

  /** The lazy pattern `marker(.*?)<` matches starting at index `i`: the marker
      occurs there and the next `<` comes before any line terminator. */
  predicate CapturesAt(text: string, marker: string, i: int) {
    && OccursAt(text, marker, i)
    && var p := i + |marker|;
       var n := RunLength(text, p, IsCaptureChar);
       p + n < |text| && text[p + n] == '<'
  }

  /** The text captured by `(.*?)` at a match starting at `i`. */
  function CaptureAt(text: string, marker: string, i: int): (c: string)
    requires CapturesAt(text, marker, i)
    ensures forall k :: 0 <= k < |c| ==> c[k] != '<' && !IsLineTerminator(c[k])
    ensures OccursAt(text, marker + c + "<", i)
  {
    var p := i + |marker|;
    var c := text[p..p + RunLength(text, p, IsCaptureChar)];
    assert text[i..p + |c| + 1] == marker + c + "<";
    c
  }

  /** The leftmost index where the whole lazy pattern matches. */
  function FirstCapture(text: string, marker: string): (r: Option<int>)
    ensures r.None? <==> forall i :: !CapturesAt(text, marker, i)
    ensures r.Some? ==> CapturesAt(text, marker, r.value)
    ensures r.Some? ==> forall j :: 0 <= j < r.value ==> !CapturesAt(text, marker, j)
  {
    var r := FindFirst(i => CapturesAt(text, marker, i), 0, |text|);
    assert r.None? ==> forall i :: !CapturesAt(text, marker, i) by {
      if r.None? {
        forall i ensures !CapturesAt(text, marker, i) {
          if 0 <= i < |text| {
            assert !(i => CapturesAt(text, marker, i))(i);
          }
        }
      }
    }
    assert r.Some? ==> forall j :: 0 <= j < r.value ==> !CapturesAt(text, marker, j) by {
      if r.Some? {
        forall j | 0 <= j < r.value ensures !CapturesAt(text, marker, j) {
          assert !(i => CapturesAt(text, marker, i))(j);
        }
      }
    }
    r
  }

  /** `text.match(/marker(.*?)</)`, returning the capture group. */
  function LazyCapture(text: string, marker: string): (r: Option<string>)
    ensures r.Some? ==> forall k :: 0 <= k < |r.value| ==> r.value[k] != '<'
  {
    match FirstCapture(text, marker)
    case None => None
    case Some(i) => Some(CaptureAt(text, marker, i))
  }

  /** The lazy match fails exactly when no occurrence of the marker is
      followed by a `<` before a line break, and otherwise captures after the
      leftmost occurrence that is. */
  lemma LazyCaptureIsLeftmost(text: string, marker: string)
    ensures LazyCapture(text, marker).None? <==> forall i :: !CapturesAt(text, marker, i)
    ensures LazyCapture(text, marker).Some? ==>
      exists i :: && CapturesAt(text, marker, i)
                  && (forall j :: 0 <= j < i ==> !CapturesAt(text, marker, j))
                  && LazyCapture(text, marker).value == CaptureAt(text, marker, i)
  {
    if LazyCapture(text, marker).Some? {
      var i := FirstCapture(text, marker).value;
      assert LazyCapture(text, marker).value == CaptureAt(text, marker, i);
    }
  }

  /** The capture is the shortest one: no `<` of the text lies inside it, so
      it ends at the first `<` after the marker. It holds no line break and
      may be empty. */
  lemma CaptureIsShortest(text: string, marker: string)
    requires LazyCapture(text, marker).Some?
    ensures var c := LazyCapture(text, marker).value;
            && (forall k :: 0 <= k < |c| ==> c[k] != '<' && !IsLineTerminator(c[k]))
            && Contains(text, marker + c + "<")
  {
    var c := LazyCapture(text, marker).value;
    var i := FirstCapture(text, marker).value;
    assert OccursAt(text, marker + c + "<", i);
  }

  /** The key is a plain substring: `XSESSION=` satisfies the key `SESSION`. */
  lemma SubstringKeyMatches()
    ensures ExtractKV("XSESSION=abc", "SESSION") == Some("abc")
  {
    var text, key := "XSESSION=abc", "SESSION";
    assert text[1..9] == key + "=";
    assert KeyValueAt(text, key, 1);
    assert !KeyValueAt(text, key, 0) by {
      assert text[0] != (key + "=")[0];
    }
    assert RunLength(text, 9, IsValueChar) == 3;
    assert ValueAt(text, key, 1) == "abc";
  }

  /** A value that is present but empty is "not found": `token=&...` fails. */
  lemma EmptyValueIsNotFound()
    ensures Contains("a?token=&b=1", "token=")
    ensures ExtractKV("a?token=&b=1", "token").None?
  {
    var text, key := "a?token=&b=1", "token";
    assert OccursAt(text, "token=", 2);
    forall i ensures !KeyValueAt(text, key, i) {
      if 0 <= i && i + 6 <= |text| && text[i..i + 6] == "token=" {
        var w := text[i..i + 6];
        assert w[0] == text[i] && w[0] == 't';
        assert text[0] == 'a' && text[1] == '?' && text[3] == 'o';
        assert text[4] == 'k' && text[5] == 'e' && text[6] == 'n';
        assert i == 2;
        assert !IsValueChar(text[8]);
      }
    }
  }
}

=== FILE: seat_index.dfy ===
/** The fold inside `loadSeatLookup`: a floor's seat list becomes four
    indexes, keyed by space name, space code, map name and space id. */
module SeatIndex {
  import opened SeatTypes
  import opened Indexing

  datatype Field = SpaceName | SpaceCode | MapName | SpaceId

  /** The value of `field` in `seat`. */
  function KeyOf(seat: Seat, field: Field): string {
    match field
    case SpaceName => seat.spaceName
    case SpaceCode => seat.spaceCode
    case MapName => seat.mapName
    case SpaceId => seat.spaceId
  }

  /** One index: each seat with a non-empty `field` is stored under it, later
      seats overwriting earlier ones. */
  function IndexBy(seats: seq<Seat>, field: Field): (m: map<string, Seat>)
    ensures forall i :: 0 <= i < |seats| && KeyOf(seats[i], field) != "" ==> KeyOf(seats[i], field) in m
    ensures forall k :: k in m ==> k != "" && KeyOf(m[k], field) == k && m[k] in seats
    ensures forall i :: 0 <= i < |seats| && IsLast(seats, s => KeyOf(s, field), i) ==> m[KeyOf(seats[i], field)] == seats[i]
  {
    var key := (s: Seat) => KeyOf(s, field);
    var m := LastWins(seats, key, (s: Seat) => s);
    forall k | k in m ensures k != "" && KeyOf(m[k], field) == k && m[k] in seats {
      EntryIsLast(seats, key, (s: Seat) => s, k);
    }
    m
  }

  /** `loadSeatLookup`'s fold: four independent indexes, one per field. A
      seat enters each index exactly when that one field is non-empty, and
      every entry is stored under its own field's value. */
  function BuildLookup(seats: seq<Seat>): (r: Lookup)
    ensures forall i :: 0 <= i < |seats| ==>
              && (seats[i].spaceName in r.bySpaceName <==> seats[i].spaceName != "")
              && (seats[i].spaceCode in r.bySpaceCode <==> seats[i].spaceCode != "")
              && (seats[i].mapName in r.byMapName <==> seats[i].mapName != "")
              && (seats[i].spaceId in r.bySpaceId <==> seats[i].spaceId != "")
    ensures forall k :: k in r.bySpaceName ==> r.bySpaceName[k].spaceName == k
    ensures forall k :: k in r.bySpaceCode ==> r.bySpaceCode[k].spaceCode == k
    ensures forall k :: k in r.byMapName ==> r.byMapName[k].mapName == k
    ensures forall k :: k in r.bySpaceId ==> r.bySpaceId[k].spaceId == k
  {
    Lookup(IndexBy(seats, SpaceName), IndexBy(seats, SpaceCode), IndexBy(seats, MapName), IndexBy(seats, SpaceId))
  }
}

=== FILE: seat_query.dfy ===
/** `useSeatQuery`: the date/time form, the half-hour time slots, the
    availability request and the fold of its answer into a map from space id
    to status. */
module SeatQuery {
  import opened Wrappers
  import opened Text
  import opened SeatTypes
  import opened ApiTypes
  import opened Indexing
  import SeatIndex

  /** `String(value).padStart(2, '0')`. */
  function Pad(v: int): (r: string)
    ensures |r| >= 2
    ensures 0 <= v <= 99 ==> |r| == 2
    ensures v >= 10 ==> r == DecimalString(v)
    ensures 0 <= v < 10 ==> r == "0" + DecimalString(v)
    ensures v < 0 ==> r == DecimalString(v)
  {
    var s := DecimalString(v);
    if |s| >= 2 then s else "0" + s
  }

  /** Padding loses nothing: a non-negative number's padded rendering is all
      digits and reads back as the number. */
  lemma PadRoundTrip(v: int)
    requires v >= 0
    ensures forall k :: 0 <= k < |Pad(v)| ==> IsDigit(Pad(v)[k])
    ensures ParseDecimal(Pad(v)) == v
  {
    DigitsRoundTrip(v);
    if v < 10 {
      LeadingZero(Digits(v));
    }
  }

  /** A number below 100 pads to its two decimal digits. */
  lemma PadTwoDigits(v: int)
    requires 0 <= v <= 99
    ensures Pad(v) == [DigitChar(v / 10), DigitChar(v % 10)]
  {
    if v >= 10 {
      assert Digits(v) == Digits(v / 10) + [DigitChar(v % 10)];
    }
  }

  /** The `i`-th entry of the time-slot list: every half hour from 08:00. */
  function SlotLabel(i: int): string
    requires 0 <= i
  {
    Pad(8 + i / 2) + (if i % 2 == 0 then ":00" else ":30")
  }

  /** Number of entries of `timeOptions`. */
  const SlotCount := 30

  /** The two slots of one hour. */
  lemma SlotsOfHour(hour: int)
    requires 8 <= hour <= 22
    ensures SlotLabel(2 * (hour - 8)) == Pad(hour) + ":00"
    ensures SlotLabel(2 * (hour - 8) + 1) == Pad(hour) + ":30"
  {
    assert (2 * (hour - 8)) / 2 == hour - 8 && (2 * (hour - 8)) % 2 == 0;
    assert (2 * (hour - 8) + 1) / 2 == hour - 8 && (2 * (hour - 8) + 1) % 2 == 1;
  }

  /** The closing entry the source appends by hand is the last half-hour slot. */
  lemma LastSlot()
    ensures SlotLabel(SlotCount - 1) == "22:30"
  {
    SlotsOfHour(22);
    PadTwoDigits(22);
  }

  /** `timeOptions`: for each hour from 8 to 22 the full hour, and the half
      hour except after 22; then `'22:30'`. */
  method TimeOptions() returns (options: seq<string>)
    ensures |options| == SlotCount
    ensures forall i :: 0 <= i < |options| ==> options[i] == SlotLabel(i)
  {
    options := [];
    var hour := 8;
    while hour <= 22
      invariant 8 <= hour <= 23
      invariant |options| == if hour <= 22 then 2 * (hour - 8) else 29
      invariant forall i :: 0 <= i < |options| ==> options[i] == SlotLabel(i)
    {
      var hourText := Pad(hour);
      SlotsOfHour(hour);
      options := options + [hourText + ":00"];
      if hour != 22 {
        options := options + [hourText + ":30"];
      }
      hour := hour + 1;
    }
    LastSlot();
    options := options + ["22:30"];
  }

  /** `t` has the shape `HH:MM`. */
  predicate IsClock(t: string) {
    |t| == 5 && IsDigit(t[0]) && IsDigit(t[1]) && t[2] == ':' && IsDigit(t[3]) && IsDigit(t[4])
  }

  /** Minutes since midnight of an `HH:MM` label. */
  function ClockMinutes(t: string): int
    requires IsClock(t)
  {
    ParseDecimal(t[..2]) * 60 + ParseDecimal(t[3..])
  }

  /** Slot `i` reads `HH:MM` and lies `30 * i` minutes after 08:00; so the
      slots are exactly half an hour apart, strictly increasing from 08:00 to
      22:30. */
  lemma SlotTime(i: int)
    requires 0 <= i < SlotCount
    ensures IsClock(SlotLabel(i))
    ensures ClockMinutes(SlotLabel(i)) == 8 * 60 + 30 * i
  {
    var h := Pad(8 + i / 2);
    PadRoundTrip(8 + i / 2);
    var t := SlotLabel(i);
    assert t[..2] == h;
    if i % 2 == 0 {
      assert t[3..] == "00";
      assert ParseDecimal("00") == 0 by {
        assert "00"[..1] == "0";
      }
    } else {
      assert t[3..] == "30";
      assert ParseDecimal("30") == 30 by {
        assert "30"[..1] == "3";
        assert "3"[..0] == "";
      }
    }
  }

  /** The list starts at 08:00, ends at 22:30 and has no duplicates. */
  lemma SlotsDistinct()
    ensures SlotLabel(0) == "08:00" && SlotLabel(SlotCount - 1) == "22:30"
    ensures forall i, j :: 0 <= i < j < SlotCount ==> SlotLabel(i) != SlotLabel(j)
  {
    PadTwoDigits(8);
    PadTwoDigits(22);
    forall i, j | 0 <= i < j < SlotCount ensures SlotLabel(i) != SlotLabel(j) {
      SlotTime(i);
      SlotTime(j);
    }
  }

  /** `s.replace(c, '')` with a one-character pattern: only the first
      occurrence is removed. */
  function RemoveFirst(s: string, c: char): (r: string)
    ensures c !in s ==> r == s
    ensures forall i :: 0 <= i < |s| && s[i] == c && c !in s[..i] ==> r == s[..i] + s[i + 1..]
    decreases |s|
  {
    if |s| == 0 then s
    else if s[0] == c then s[1..]
    else
      var rest := RemoveFirst(s[1..], c);
      forall i | 0 < i < |s| && s[i] == c && c !in s[..i] ensures [s[0]] + rest == s[..i] + s[i + 1..] {
        ShiftFirst(s, c, i);
      }
      [s[0]] + rest
  }

  /** Dropping the first character moves an occurrence one place left. */
  lemma ShiftFirst(s: string, c: char, i: int)
    requires 0 < i < |s| && s[i] == c && c !in s[..i]
    ensures s[1..][i - 1] == c && c !in s[1..][..i - 1]
    ensures s[..i] + s[i + 1..] == [s[0]] + (s[1..][..i - 1] + s[1..][i..])
  {
    assert s[1..][..i - 1] == s[1..i];
    assert forall x :: x in s[1..i] ==> x in s[..i];
  }

  /** `floorLike` is the floor's digit. */
  lemma FloorLikeIsDigit(floor: Floor)
    ensures RemoveFirst(FloorName(floor), 'F') == (if floor == F4 then "4" else "5")
  {
  }

  /** The `queryPayload` computed value: date and time joined by a space, the
      floor's digit, no parent and region 1. */
  function QueryPayload(date: string, startTime: string, endTime: string, floor: Floor): (r: SeatQueryPayload)
    ensures r.beginTime == date + " " + startTime && r.endTime == date + " " + endTime
    ensures r.floorLike == (if floor == F4 then "4" else "5")
    ensures r.parentId.None? && r.region == 1
  {
    FloorLikeIsDigit(floor);
    SeatQueryPayload(date + " " + startTime, date + " " + endTime, RemoveFirst(FloorName(floor), 'F'), None, 1)
  }

  /** One entry of the availability answer. An absent name or code is `""`. */
  datatype StatusItem = StatusItem(spaceStatus: int, spaceName: string, spaceCode: string)

  /** The seat an answer entry refers to: by name when the name is non-empty
      and known, otherwise by code when the code is non-empty and known. */
  function Resolve(item: StatusItem, lookup: Lookup): (r: Option<Seat>)
    ensures item.spaceName != "" && item.spaceName in lookup.bySpaceName ==>
              r == Some(lookup.bySpaceName[item.spaceName])
    ensures !(item.spaceName != "" && item.spaceName in lookup.bySpaceName) ==>
              (r.Some? <==> item.spaceCode != "" && item.spaceCode in lookup.bySpaceCode)
    ensures !(item.spaceName != "" && item.spaceName in lookup.bySpaceName) && r.Some? ==>
              r.value == lookup.bySpaceCode[item.spaceCode]
  {
    if item.spaceName != "" && item.spaceName in lookup.bySpaceName then Some(lookup.bySpaceName[item.spaceName])
    else if item.spaceCode != "" && item.spaceCode in lookup.bySpaceCode then Some(lookup.bySpaceCode[item.spaceCode])
    else None
  }

  /** `seat?.spaceId || ''`. */
  function SpaceIdOf(item: StatusItem, lookup: Lookup): (r: string)
    ensures Resolve(item, lookup).None? ==> r == ""
    ensures Resolve(item, lookup).Some? ==> r == Resolve(item, lookup).value.spaceId
  {
    match Resolve(item, lookup)
    case Some(seat) => seat.spaceId
    case None => ""
  }

  /** The `nextMap` fold: each entry whose seat has a non-empty space id sets
      that id's status, later entries overwriting earlier ones. */
  function StatusMap(items: seq<StatusItem>, lookup: Lookup): (m: map<string, int>)
    ensures forall k :: k in m ==> k != "" && exists i :: 0 <= i < |items| && SpaceIdOf(items[i], lookup) == k
    ensures forall i :: 0 <= i < |items| && SpaceIdOf(items[i], lookup) != "" ==> SpaceIdOf(items[i], lookup) in m
    ensures forall i :: 0 <= i < |items| && IsLast(items, it => SpaceIdOf(it, lookup), i) ==>
              m[SpaceIdOf(items[i], lookup)] == items[i].spaceStatus
  {
    LastWins(items, it => SpaceIdOf(it, lookup), (it: StatusItem) => it.spaceStatus)
  }

  /** The composable's state. */
  datatype QueryState = QueryState(
    selectedDate: string, startTime: string, endTime: string,
    isQuerying: bool, errorMessage: string, seatStatusMap: map<string, int>)

  /** The initial state; `today` is the formatted current date. Start and end
      are the 12:00 and 13:00 entries of the time-slot list. */
  function InitialQueryState(today: string): (r: QueryState)
    ensures r.selectedDate == today
    ensures r.startTime == SlotLabel(8) && r.endTime == SlotLabel(10)
    ensures IsClock(r.startTime) && IsClock(r.endTime)
            && ClockMinutes(r.startTime) + 60 == ClockMinutes(r.endTime)
    ensures !r.isQuerying && r.errorMessage == "" && r.seatStatusMap == map[]
  {
    SlotsOfHour(12);
    PadTwoDigits(12);
    SlotsOfHour(13);
    PadTwoDigits(13);
    assert SlotLabel(8) == "12:00" && SlotLabel(10) == "13:00";
    SlotTime(8);
    SlotTime(10);
    QueryState(today, "12:00", "13:00", false, "", map[])
  }

  /** The availability request: its body and its `Token` header. */
  datatype QueryRequest = QueryRequest(payload: SeatQueryPayload, token: string)

  const IncompleteMessage := "请完整选择日期与时间"
  const QueryFailedMessage := "查询失败"

  /** `handleQuery`, given the answer to the request it sends and the seat
      list of the current floor. */
  function HandleQuery(s: QueryState, token: string, floor: Floor, seats: seq<Seat>,
                       reply: ApiReply<Option<seq<StatusItem>>>): (r: Step<QueryState, QueryRequest>)
    ensures r.state.selectedDate == s.selectedDate && r.state.startTime == s.startTime && r.state.endTime == s.endTime
    ensures s.selectedDate == "" || s.startTime == "" || s.endTime == "" ==>
              r.sent.None? && r.state == s.(errorMessage := IncompleteMessage)
    ensures s.selectedDate != "" && s.startTime != "" && s.endTime != "" ==>
              && r.sent.Some?
              && r.sent.value.token == token
              && r.sent.value.payload.beginTime == s.selectedDate + " " + s.startTime
              && r.sent.value.payload.endTime == s.selectedDate + " " + s.endTime
              && r.sent.value.payload.floorLike == (if floor == F4 then "4" else "5")
              && r.sent.value.payload.parentId.None?
              && r.sent.value.payload.region == 1
              && !r.state.isQuerying
    ensures r.sent.Some? && !reply.Ok() ==>
              r.state.seatStatusMap == map[] && r.state.errorMessage == FailureText(reply, QueryFailedMessage)
    ensures r.sent.Some? && reply.Ok() ==>
              r.state.errorMessage == ""
              && r.state.seatStatusMap == StatusMap(reply.body.GetOr([]), SeatIndex.BuildLookup(seats))
  {
    if s.selectedDate == "" || s.startTime == "" || s.endTime == "" then
      Step(s.(errorMessage := IncompleteMessage), None)
    else
      FloorLikeIsDigit(floor);
      var request := QueryRequest(QueryPayload(s.selectedDate, s.startTime, s.endTime, floor), token);
      var cleared := s.(errorMessage := "", isQuerying := true, seatStatusMap := map[]);
      var after :=
        if !reply.Ok() then cleared.(errorMessage := FailureText(reply, QueryFailedMessage))
        else cleared.(seatStatusMap := StatusMap(reply.body.GetOr([]), SeatIndex.BuildLookup(seats)));
      Step(after.(isQuerying := false), Some(request))
  }

  /** The `watch` on the floor: switching floors clears the status map and
      nothing else. */
  function OnFloorChange(s: QueryState): (r: QueryState)
    ensures r.seatStatusMap == map[]
    ensures r.selectedDate == s.selectedDate && r.startTime == s.startTime && r.endTime == s.endTime
    ensures r.isQuerying == s.isQuerying && r.errorMessage == s.errorMessage
  {
    s.(seatStatusMap := map[])
  }
}

=== FILE: seat_reservation.dfy ===
/** `useSeatReservation`: when a reservation may be submitted, what is sent,
    and the success flag and message it leaves behind. */
module SeatReservation {
  import opened Wrappers
  import opened SeatTypes
  import opened ApiTypes

  /** The inputs the composable reads from the query form and the seat map. */
  datatype Selection = Selection(
    selectedDate: string, startTime: string, endTime: string,
    selectedSeat: Option<Seat>, seatStatusMap: map<string, int>)

  datatype ReservationState = ReservationState(isSubmitting: bool, reservationMessage: string, reservationSuccess: bool)

  const SuccessMessage := "预约成功"
  const FailureMessage := "预约失败"

  /** `selectedSeatStatus`: the selected seat's status, undefined when no
      seat with a space id is selected or the map has no entry for it. */
  function SelectedSeatStatus(sel: Selection): (r: Option<int>)
    ensures sel.selectedSeat.None? ==> r.None?
    ensures sel.selectedSeat.Some? && sel.selectedSeat.value.spaceId == "" ==> r.None?
    ensures r.Some? <==> sel.selectedSeat.Some? && sel.selectedSeat.value.spaceId != ""
                         && sel.selectedSeat.value.spaceId in sel.seatStatusMap
    ensures r.Some? ==> r.value == sel.seatStatusMap[sel.selectedSeat.value.spaceId]
  {
    match sel.selectedSeat
    case None => None
    case Some(seat) =>
      if seat.spaceId == "" then None
      else if seat.spaceId in sel.seatStatusMap then Some(sel.seatStatusMap[seat.spaceId])
      else None
  }

  /** `resetReservationState`. */
  function ResetReservationState(s: ReservationState): (r: ReservationState)
    ensures !r.isSubmitting && r.reservationMessage == "" && !r.reservationSuccess
  {
    ReservationState(false, "", false)
  }

  /** A submission goes out only for a selected seat whose status is exactly
      0, with date, start and end all chosen. */
  function CanSubmit(sel: Selection): (r: bool)
    ensures r <==> && sel.selectedSeat.Some?
                   && sel.selectedSeat.value.spaceId != ""
                   && sel.selectedSeat.value.spaceId in sel.seatStatusMap
                   && sel.seatStatusMap[sel.selectedSeat.value.spaceId] == 0
                   && sel.selectedDate != "" && sel.startTime != "" && sel.endTime != ""
  {
    && sel.selectedSeat.Some?
    && SelectedSeatStatus(sel) == Some(0)
    && sel.selectedDate != "" && sel.startTime != "" && sel.endTime != ""
  }

  /** `submitReservation`, given the answer to the request it sends. */
  function SubmitReservation(s: ReservationState, sel: Selection, reply: ApiReply<()>): (r: Step<ReservationState, AppointPayload>)
    ensures r.sent.Some? <==> CanSubmit(sel)
    ensures r.sent.None? ==> r.state == s
    ensures r.sent.Some? ==>
              && r.sent.value.spaceId == sel.selectedSeat.value.spaceId
              && r.sent.value.beginTime == sel.startTime
              && r.sent.value.endTime == sel.endTime
              && r.sent.value.date == sel.selectedDate
              && !r.state.isSubmitting
              && (r.state.reservationSuccess <==> reply.Ok())
              && (reply.Ok() ==> r.state.reservationMessage == SuccessMessage)
              && (!reply.Ok() ==> r.state.reservationMessage == FailureText(reply, FailureMessage))
  {
    if sel.selectedSeat.None? then Step(s, None)
    else if SelectedSeatStatus(sel) != Some(0) then Step(s, None)
    else if sel.selectedDate == "" || sel.startTime == "" || sel.endTime == "" then Step(s, None)
    else
      var payload := AppointPayload(sel.selectedSeat.value.spaceId, sel.startTime, sel.endTime, sel.selectedDate);
      var started := ReservationState(true, "", false);
      var after :=
        if reply.Ok() then started.(reservationSuccess := true, reservationMessage := SuccessMessage)
        else started.(reservationMessage := FailureText(reply, FailureMessage));
      Step(after.(isSubmitting := false), Some(payload))
  }

  /** A seat whose status is unknown or non-zero is never submitted, whatever
      the rest of the form says. */
  lemma OnlyFreeSeatsSubmitted(s: ReservationState, sel: Selection, reply: ApiReply<()>)
    requires SelectedSeatStatus(sel) != Some(0)
    ensures SubmitReservation(s, sel, reply) == Step(s, None)
  {
  }
}

=== FILE: text.dfy ===
/** String helpers shared by the model: searching, character runs, trimming,
    JavaScript's falsy-string fallback and decimal rendering. Strings are
    sequences of Unicode scalar values. */
module Text {
  import opened Wrappers

  /** JavaScript's `a || b` on two strings: the empty string is falsy. */
  function Or(a: string, b: string): (r: string)
    ensures a != "" ==> r == a
    ensures a == "" ==> r == b
  {
    if a != "" then a else b
  }

  /** `sub` occurs in `s` starting at index `i`. */
  predicate OccursAt(s: string, sub: string, i: int) {
    0 <= i && i + |sub| <= |s| && s[i..i + |sub|] == sub
  }

  /** `s.includes(sub)`. */
  predicate Contains(s: string, sub: string) {
    exists i :: 0 <= i <= |s| && OccursAt(s, sub, i)
  }

  /** `sub` cannot occur in `head + tail` when its `k`-th character is not in
      `head` and `tail` is too short to hold that character and the rest. */
  lemma AbsentWithoutChar(head: string, tail: string, sub: string, k: nat)
    requires k < |sub| && sub[k] !in head && |tail| < |sub| - k
    ensures !Contains(head + tail, sub)
  {
    var s := head + tail;
    forall i | 0 <= i <= |s|
      ensures !OccursAt(s, sub, i)
    {
      if i + |sub| <= |s| {
        assert s[i..i + |sub|][k] == s[i + k] == head[i + k];
        assert head[i + k] in head;
      }
    }
  }

  /** The least `i` in `[lo, hi)` satisfying `p`, the way a left-to-right scan finds it. */
  function FindFirst(p: int -> bool, lo: int, hi: int): (r: Option<int>)
    ensures r.Some? ==> lo <= r.value < hi && p(r.value)
    ensures r.Some? ==> forall j :: lo <= j < r.value ==> !p(j)
    ensures r.None? ==> forall j :: lo <= j < hi ==> !p(j)
    decreases hi - lo
  {
    if lo >= hi then None
    else if p(lo) then Some(lo)
    else FindFirst(p, lo + 1, hi)
  }

  /** Length of the longest run of characters satisfying `ok` that starts at `p`. */
  function RunLength(s: string, p: int, ok: char -> bool): (n: nat)
    requires 0 <= p <= |s|
    ensures p + n <= |s|
    ensures forall k :: p <= k < p + n ==> ok(s[k])
    ensures p + n == |s| || !ok(s[p + n])
    decreases |s| - p
  {
    if p < |s| && ok(s[p]) then 1 + RunLength(s, p + 1, ok) else 0
  }

  /** The characters a regular expression's `.` does not match (LineTerminator of ECMA-262). */
  predicate IsLineTerminator(c: char) {
    c == '\n' || c == '\r' || c == '\U{2028}' || c == '\U{2029}'
  }

  /** The characters `String.prototype.trim` removes: WhiteSpace and LineTerminator of ECMA-262. */
  predicate IsWhiteSpace(c: char) {
    || c == '\t' || c == '\U{000B}' || c == '\U{000C}' || c == ' '
    || c == '\U{00A0}' || c == '\U{FEFF}' || c == '\U{1680}'
    || ('\U{2000}' <= c <= '\U{200A}')
    || c == '\U{202F}' || c == '\U{205F}' || c == '\U{3000}'
    || IsLineTerminator(c)
  }

  /** Neither end of `s` is white space. */
  predicate IsTrimmed(s: string) {
    s == [] || (!IsWhiteSpace(s[0]) && !IsWhiteSpace(s[|s| - 1]))
  }

  /** Number of white-space characters at the end of `s`. */
  function TrailingSpace(s: string): (n: nat)
    ensures n <= |s|
    ensures forall k :: |s| - n <= k < |s| ==> IsWhiteSpace(s[k])
    ensures n == |s| || !IsWhiteSpace(s[|s| - n - 1])
    decreases |s|
  {
    if |s| > 0 && IsWhiteSpace(s[|s| - 1]) then 1 + TrailingSpace(s[..|s| - 1]) else 0
  }

  /** `s.trim()`. */
  function Trim(s: string): (r: string)
    ensures IsTrimmed(r)
    ensures exists i, j :: 0 <= i <= j <= |s| && r == s[i..j]
                        && (forall k :: 0 <= k < i ==> IsWhiteSpace(s[k]))
                        && (forall k :: j <= k < |s| ==> IsWhiteSpace(s[k]))
  {
    var i := RunLength(s, 0, IsWhiteSpace);
    var rest := s[i..];
    var j := i + |rest| - TrailingSpace(rest);
    assert rest[..|rest| - TrailingSpace(rest)] == s[i..j];
    assert forall k :: j <= k < |s| ==> s[k] == rest[k - i];
    s[i..j]
  }

  /** A trimmed string is its own trim. */
  lemma {:induction false} TrimFixesTrimmed(s: string)
    requires IsTrimmed(s)
    ensures Trim(s) == s
  {
    if s != [] {
      assert RunLength(s, 0, IsWhiteSpace) == 0;
      assert s[0..] == s;
      assert TrailingSpace(s) == 0;
    }
  }

  /** Trimming twice is trimming once. */
  lemma TrimIdempotent(s: string)
    ensures Trim(Trim(s)) == Trim(s)
  {
    TrimFixesTrimmed(Trim(s));
  }

  /** The decimal digit character for `d`. */
  function DigitChar(d: int): char
    requires 0 <= d < 10
  {
    ('0' as int + d) as char
  }

  predicate IsDigit(c: char) {
    '0' <= c <= '9'
  }

  function DigitValue(c: char): int
    requires IsDigit(c)
  {
    c as int - '0' as int
  }

  /** The value of a string of decimal digits; leading zeros are allowed. */
  function ParseDecimal(s: string): nat
    requires forall k :: 0 <= k < |s| ==> IsDigit(s[k])
    decreases |s|
  {
    if s == [] then 0 else ParseDecimal(s[..|s| - 1]) * 10 + DigitValue(s[|s| - 1])
  }

  /** `String(n)` for a natural number below 10^21 that JavaScript holds
      exactly: its shortest decimal rendering. Beyond that range JavaScript
      switches to exponent notation or rounds, which this does not model. */
  function Digits(n: nat): (r: string)
    ensures |r| >= 1
    ensures forall k :: 0 <= k < |r| ==> IsDigit(r[k])
    ensures |r| == 1 || r[0] != '0'
    ensures n < 10 <==> |r| == 1
    ensures 10 <= n < 100 <==> |r| == 2
    decreases n
  {
    if n < 10 then [DigitChar(n)] else Digits(n / 10) + [DigitChar(n % 10)]
  }

  /** Reading a rendered number back gives the number. */
  lemma {:induction false} DigitsRoundTrip(n: nat)
    ensures ParseDecimal(Digits(n)) == n
    decreases n
  {
    if n >= 10 {
      var r := Digits(n);
      assert r[..|r| - 1] == Digits(n / 10);
      DigitsRoundTrip(n / 10);
    }
  }

  /** `String(v)` for an integer `v`. */
  function DecimalString(v: int): string {
    if v < 0 then "-" + Digits(-v) else Digits(v)
  }

  /** A leading zero does not change a decimal value. */
  lemma {:induction false} LeadingZero(s: string)
    requires forall k :: 0 <= k < |s| ==> IsDigit(s[k])
    ensures ParseDecimal("0" + s) == ParseDecimal(s)
    decreases |s|
  {
    if s != [] {
      assert ("0" + s)[..|"0" + s| - 1] == "0" + s[..|s| - 1];
      LeadingZero(s[..|s| - 1]);
    }
  }
}

=== FILE: token_flow.dfy ===
/** `getLearningCenterToken`: the single-sign-on handshake that turns a
    username and password into a seat-service token.

    The three HTTP exchanges are inputs: an `SsoServer` says what the login
    page looks like, which cookies the jar holds after the login POST (as a
    function of the form and `Cookie` header sent), and where the OAuth
    redirect chain lands (as a function of the `Cookie` header sent). The
    AES encryption of the password is the parameter `enc`, a `Cipher`. A
    `Run` records the outcome and the requests issued, in order. */
module TokenFlow {
  import opened Wrappers
  import opened Text
  import opened Scrape

  /** The OAuth authorize URL, assembled from its endpoint, its three query
      parameters and the redirect URI. */
  const AuthEndpoint := "https://sso.fzu.edu.cn/oauth2.0/authorize"
  const AuthQuery := "?response_type=code" + "&client_id=wlwxt" + "&redirect_uri="
  const RedirectHost := "http://aiot.fzu.edu.cn"
  const RedirectPath := "/api/admin/sso/getIbsToken"
  const AuthUrl := AuthEndpoint + AuthQuery + RedirectHost + RedirectPath
  const CryptoMarker := "\"login-croypto\">"
  const FlowKeyMarker := "\"login-page-flowkey\">"
  const TgcName := "SOURCEID_TGC"

  /** `validateStatus`: every request treats 2xx and 3xx as success. */
  predicate StatusAccepted(status: int) {
    200 <= status < 400
  }

  /** An HTTP exchange: no reply at all (transport failure) or the final
      status and payload after redirects. */
  datatype HttpReply<T> = NoReply | Reply(status: int, payload: T)

  /** The payload of a reply axios resolves with; `None` when it rejects. */
  function Accepted<T>(reply: HttpReply<T>): (r: Option<T>)
    ensures r.Some? <==> reply.Reply? && StatusAccepted(reply.status)
    ensures r.Some? ==> r.value == reply.payload
  {
    if reply.Reply? && StatusAccepted(reply.status) then Some(reply.payload) else None
  }

  datatype Cookie = Cookie(key: string, value: string)

  /** The login page: its HTML and its `Set-Cookie` headers, if any. */
  datatype LoginPage = LoginPage(html: string, setCookie: Option<seq<string>>)

  /** A URL-encoded form as its ordered list of fields. */
  type Form = seq<(string, string)>

  /** The three exchanges of the handshake. `authorize` yields the
      `responseUrl` of the final response, `None` when it has none. */
  datatype SsoServer = SsoServer(
    page: HttpReply<LoginPage>,
    postLogin: (Form, string) -> HttpReply<seq<Cookie>>,
    authorize: string -> HttpReply<Option<string>>)

  datatype Request =
    | GetLoginPage
    | PostLogin(form: Form, cookie: string)
    | GetAuthorize(cookie: string)

  datatype Stage = PageStage | LoginStage | AuthorizeStage

  /** The errors the flow throws. */
  datatype TokenError =
    | EmptyCredentials        // 账号密码不能为空
    | MarkersNotFound         // 无法提取 crypto / execution
    | KeyNotFound(key: string) // 未找到键: <key>
    | CipherFailed            // createCipheriv rejects the scraped key
    | WrongCredentials        // 学号或密码错误
    | TokenNotInUrl           // 未在最终 URL 中找到 token
    | RequestFailed(stage: Stage)

  datatype Run = Run(outcome: Result<string, TokenError>, sent: seq<Request>)

  /** `encryptPassword(text, keyBase64)`: the base64 AES-128-ECB ciphertext,
      or `None` when the key does not decode to 16 bytes and
      `createCipheriv` throws. */
  type Cipher = (string, string) -> Option<string>

  /** Where part `k` starts in `Join(parts, sep)`. */
  function Offset(parts: seq<string>, sep: string, k: nat): nat
    requires k < |parts|
  {
    if k == 0 then 0 else |parts[0]| + |sep| + Offset(parts[1..], sep, k - 1)
  }

  /** `arr.join(sep)`. */
  function Join(parts: seq<string>, sep: string): (r: string)
    ensures |parts| == 0 ==> r == ""
    ensures |parts| > 0 ==> |r| == Offset(parts, sep, |parts| - 1) + |parts[|parts| - 1]|
    decreases |parts|
  {
    if |parts| == 0 then ""
    else if |parts| == 1 then parts[0]
    else parts[0] + sep + Join(parts[1..], sep)
  }

  /** `sub` at `i` in `b` is `sub` at `|a| + i` in `a + b`. */
  lemma OccursAfter(a: string, b: string, sub: string, i: int)
    requires OccursAt(b, sub, i)
    ensures OccursAt(a + b, sub, |a| + i)
  {
    assert (a + b)[|a| + i..|a| + i + |sub|] == b[i..i + |sub|];
  }

  /** The layout of a join: part `k` sits at its offset, followed by the
      separator unless it is the last part. */
  lemma {:induction false} JoinLayout(parts: seq<string>, sep: string, k: nat)
    requires k < |parts|
    ensures OccursAt(Join(parts, sep), parts[k], Offset(parts, sep, k))
    ensures k + 1 < |parts| ==> OccursAt(Join(parts, sep), sep, Offset(parts, sep, k) + |parts[k]|)
    decreases |parts|
  {
    if |parts| == 1 {
      assert Join(parts, sep)[0..|parts[0]|] == parts[0];
    } else if k == 0 {
      JoinHead(parts, sep);
    } else {
      var head := parts[0] + sep;
      var tail := Join(parts[1..], sep);
      assert Join(parts, sep) == head + tail;
      assert Offset(parts, sep, k) == |head| + Offset(parts[1..], sep, k - 1);
      JoinLayout(parts[1..], sep, k - 1);
      assert parts[1..][k - 1] == parts[k];
      OccursAfter(head, tail, parts[k], Offset(parts[1..], sep, k - 1));
      if k + 1 < |parts| {
        OccursAfter(head, tail, sep, Offset(parts[1..], sep, k - 1) + |parts[k]|);
      }
    }
  }

  /** The first of several parts opens the join and is followed by the separator. */
  lemma JoinHead(parts: seq<string>, sep: string)
    requires |parts| >= 2
    ensures OccursAt(Join(parts, sep), parts[0], 0)
    ensures OccursAt(Join(parts, sep), sep, |parts[0]|)
  {
    var r := Join(parts, sep);
    assert r == parts[0] + sep + Join(parts[1..], sep);
    assert r[0..|parts[0]|] == parts[0];
    assert r[|parts[0]|..|parts[0]| + |sep|] == sep;
  }

  /** The `Set-Cookie` headers joined with `"; "`, or `""` when there are none. */
  function JoinedSetCookie(setCookie: Option<seq<string>>): (s: string)
    ensures setCookie.None? ==> s == ""
    ensures setCookie.Some? ==> s == Join(setCookie.value, "; ")
  {
    match setCookie
    case None => ""
    case Some(headers) => Join(headers, "; ")
  }

  /** A `SESSION` cookie in a single `Set-Cookie` header is found there. */
  lemma SingleHeaderSession(header: string)
    ensures JoinedSetCookie(Some([header])) == header
  {
  }

  /** The field names of the login form, in order. */
  const FormFields: seq<string> :=
    ["username", "type", "_eventId", "geolocation", "execution", "captcha_code", "croypto", "password", "captcha_payload"]

  /** The value of the first field named `name`. */
  function FieldValue(form: Form, name: string): Option<string>
    decreases |form|
  {
    if |form| == 0 then None
    else if form[0].0 == name then Some(form[0].1)
    else FieldValue(form[1..], name)
  }

  /** A field whose name occurs nowhere earlier is the one `FieldValue` finds. */
  lemma {:induction false} FieldValueAt(form: Form, k: int)
    requires 0 <= k < |form|
    requires forall j :: 0 <= j < k ==> form[j].0 != form[k].0
    ensures FieldValue(form, form[k].0) == Some(form[k].1)
    decreases k
  {
    if k > 0 {
      FieldValueAt(form[1..], k - 1);
    }
  }

  /** The login form, field by field as the source lists them, given the
      two ciphertexts. */
  function LoginForm(username: string, execution: string, cryptoKey: string,
                     encPassword: string, encCaptcha: string): (f: Form)
    ensures |f| == |FormFields|
    ensures forall k :: 0 <= k < |f| ==> f[k].0 == FormFields[k]
  {
    [ ("username", username),
      ("type", "UsernamePassword"),
      ("_eventId", "submit"),
      ("geolocation", ""),
      ("execution", execution),
      ("captcha_code", ""),
      ("croypto", cryptoKey),
      ("password", encPassword),
      ("captcha_payload", encCaptcha) ]
  }

  /** Looked up by name, the form carries the username, the scraped
      execution key and crypto key as they are, the two ciphertexts, and the
      fixed fields. */
  lemma LoginFormValues(username: string, execution: string, cryptoKey: string,
                        encPassword: string, encCaptcha: string)
    ensures var f := LoginForm(username, execution, cryptoKey, encPassword, encCaptcha);
            && FieldValue(f, "username") == Some(username)
            && FieldValue(f, "type") == Some("UsernamePassword")
            && FieldValue(f, "_eventId") == Some("submit")
            && FieldValue(f, "geolocation") == Some("")
            && FieldValue(f, "execution") == Some(execution)
            && FieldValue(f, "captcha_code") == Some("")
            && FieldValue(f, "croypto") == Some(cryptoKey)
            && FieldValue(f, "password") == Some(encPassword)
            && FieldValue(f, "captcha_payload") == Some(encCaptcha)
  {
    var f := LoginForm(username, execution, cryptoKey, encPassword, encCaptcha);
    FieldNamesDistinct();
    FieldValueAt(f, 2);
    FieldValueAt(f, 3);
    FieldValueAt(f, 4);
    FieldValueAt(f, 5);
    FieldValueAt(f, 6);
    FieldValueAt(f, 7);
    FieldValueAt(f, 8);
  }

  lemma FieldNamesDistinct()
    ensures forall j, k :: 0 <= j < k < |FormFields| ==> FormFields[j] != FormFields[k]
  {
    forall j, k | 0 <= j < k < |FormFields| ensures FormFields[j] != FormFields[k] {
      assert |FormFields[j]| != |FormFields[k]| || FormFields[j][0] != FormFields[k][0];
    }
  }

  /** The index `cookies.find(c => c.key === name)` stops at. */
  function FirstCookieIndex(jar: seq<Cookie>, name: string): (r: Option<int>)
    ensures r.None? <==> forall k :: 0 <= k < |jar| ==> jar[k].key != name
    ensures r.Some? ==> 0 <= r.value < |jar| && jar[r.value].key == name
    ensures r.Some? ==> forall j :: 0 <= j < r.value ==> jar[j].key != name
  {
    var r := FindFirst(k => 0 <= k < |jar| && jar[k].key == name, 0, |jar|);
    assert r.None? ==> forall k :: 0 <= k < |jar| ==> jar[k].key != name by {
      if r.None? {
        forall k | 0 <= k < |jar| ensures jar[k].key != name {
          assert !(k => 0 <= k < |jar| && jar[k].key == name)(k);
        }
      }
    }
    assert r.Some? ==> forall j :: 0 <= j < r.value ==> jar[j].key != name by {
      if r.Some? {
        forall j | 0 <= j < r.value ensures jar[j].key != name {
          assert !(k => 0 <= k < |jar| && jar[k].key == name)(j);
        }
      }
    }
    r
  }

  /** `cookies.find(c => c.key === name)`: the first cookie with that name. */
  function FindCookie(jar: seq<Cookie>, name: string): (r: Option<Cookie>)
    ensures r.None? <==> forall k :: 0 <= k < |jar| ==> jar[k].key != name
    ensures r.Some? ==> r.value.key == name
    ensures r.Some? ==> exists k :: 0 <= k < |jar| && jar[k] == r.value && forall j :: 0 <= j < k ==> jar[j].key != name
  {
    match FirstCookieIndex(jar, name)
    case None => None
    case Some(k) => Some(jar[k])
  }

  /** How many requests the flow has issued when it ends with `outcome`:
      the error names the first step that failed. */
  function RequestsBefore(outcome: Result<string, TokenError>): nat {
    match outcome
    case Success(_) => 3
    case Failure(EmptyCredentials) => 0
    case Failure(RequestFailed(PageStage)) => 1
    case Failure(MarkersNotFound) => 1
    case Failure(KeyNotFound(key)) => if key == "SESSION" then 1 else 3
    case Failure(CipherFailed) => 1
    case Failure(RequestFailed(LoginStage)) => 2
    case Failure(WrongCredentials) => 2
    case Failure(RequestFailed(AuthorizeStage)) => 3
    case Failure(TokenNotInUrl) => 3
  }

  /** The last step: the token is lifted out of the landed URL, falling back
      to the requested URL when the response carries none. */
  function TokenFromLanding(landed: Option<string>): (r: Result<string, TokenError>)
    ensures r.Success? ==> Contains(landed.GetOr(AuthUrl), "token=")
    ensures r.Success? ==> ExtractKV(landed.GetOr(AuthUrl), "token") == Some(r.value)
    ensures !Contains(landed.GetOr(AuthUrl), "token=") <==> r == Failure(TokenNotInUrl)
    ensures ExtractKV(landed.GetOr(AuthUrl), "token").Some? ==> r == Success(ExtractKV(landed.GetOr(AuthUrl), "token").value)
    ensures r.Failure? ==> r.error == TokenNotInUrl || r.error == KeyNotFound("token")
  {
    var finalUrl := landed.GetOr(AuthUrl);
    FoundKeyIsContained(finalUrl, "token");
    assert "token" + "=" == "token=";
    if !Contains(finalUrl, "token=") then Failure(TokenNotInUrl)
    else
      match ExtractKV(finalUrl, "token")
      case None => Failure(KeyNotFound("token"))
      case Some(t) => Success(t)
  }

  lemma EndpointHasNoK()
    ensures 'k' !in AuthEndpoint && 'k' !in RedirectHost
  {
  }

  lemma QueryHasNoK()
    ensures 'k' !in AuthQuery
  {
    assert 'k' !in "?response_type=code";
    assert 'k' !in "&client_id=wlwxt";
  }

  lemma RedirectPathEnd()
    ensures RedirectPath == "/api/admin/sso/getIbsTo" + "ken" && 'k' !in "/api/admin/sso/getIbsTo"
  {
  }

  /** The requested authorize URL holds no `token=`: its only `k` is in the
      closing `Token`, too near the end to start one. So a redirect that
      yields no `responseUrl` always ends with `TokenNotInUrl`. */
  lemma FallbackUrlHasNoToken()
    ensures !Contains(AuthUrl, "token=")
    ensures TokenFromLanding(None) == Failure(TokenNotInUrl)
  {
    EndpointHasNoK();
    QueryHasNoK();
    RedirectPathEnd();
    var head := AuthEndpoint + AuthQuery + RedirectHost + "/api/admin/sso/getIbsTo";
    assert AuthUrl == head + "ken";
    assert 'k' !in head;
    assert "token="[2] == 'k';
    AbsentWithoutChar(head, "ken", "token=", 2);
  }

  /** The `Cookie` header of the authorize request. */
  function TgcHeader(tgc: Cookie): string {
    TgcName + "=" + tgc.value
  }

  /** After the login POST: the ticket-granting cookie decides whether the
      credentials were accepted; then the OAuth redirect is followed with
      that cookie, and its landing decides the outcome. */
  function AfterLogin(jar: seq<Cookie>, sso: SsoServer): (run: Run)
    ensures |run.sent| + 2 == RequestsBefore(run.outcome)
    ensures run.outcome == Failure(WrongCredentials) <==> FindCookie(jar, TgcName).None?
    ensures FindCookie(jar, TgcName).None? ==> run == Run(Failure(WrongCredentials), [])
    ensures FindCookie(jar, TgcName).Some? ==>
              var header := TgcHeader(FindCookie(jar, TgcName).value);
              && run.sent == [GetAuthorize(header)]
              && (Accepted(sso.authorize(header)).None? ==> run.outcome == Failure(RequestFailed(AuthorizeStage)))
              && (Accepted(sso.authorize(header)).Some? ==> run.outcome == TokenFromLanding(sso.authorize(header).payload))
  {
    match FindCookie(jar, TgcName)
    case None => Run(Failure(WrongCredentials), [])
    case Some(tgc) =>
      var header := TgcHeader(tgc);
      match Accepted(sso.authorize(header))
      case None => Run(Failure(RequestFailed(AuthorizeStage)), [GetAuthorize(header)])
      case Some(landed) => Run(TokenFromLanding(landed), [GetAuthorize(header)])
  }

  /** The login POST with the scraped values, then the rest of the flow. */
  function PostAndContinue(form: Form, session: string, sso: SsoServer): (run: Run)
    ensures |run.sent| + 1 == RequestsBefore(run.outcome) && RequestsBefore(run.outcome) >= 2
    ensures |run.sent| >= 1 && run.sent[0] == PostLogin(form, "SESSION=" + session)
    ensures run.outcome == Failure(RequestFailed(LoginStage)) <==> Accepted(sso.postLogin(form, "SESSION=" + session)).None?
    ensures Accepted(sso.postLogin(form, "SESSION=" + session)).None? ==> run.sent == [PostLogin(form, "SESSION=" + session)]
    ensures Accepted(sso.postLogin(form, "SESSION=" + session)).Some? ==>
              var rest := AfterLogin(sso.postLogin(form, "SESSION=" + session).payload, sso);
              run == Run(rest.outcome, [PostLogin(form, "SESSION=" + session)] + rest.sent)
  {
    var sessionCookie := "SESSION=" + session;
    match Accepted(sso.postLogin(form, sessionCookie))
    case None => Run(Failure(RequestFailed(LoginStage)), [PostLogin(form, sessionCookie)])
    case Some(jar) =>
      var rest := AfterLogin(jar, sso);
      Run(rest.outcome, [PostLogin(form, sessionCookie)] + rest.sent)
  }

  /** The values scraped from the login page. */
  datatype Secrets = Secrets(cryptoKey: string, execution: string, session: string)

  /** Step 1 of the flow after the page arrived: both markers out of the
      HTML (checked together), then `SESSION` out of the joined cookies. */
  function ScrapePage(page: LoginPage): (r: Result<Secrets, TokenError>)
    ensures r.Failure? ==> r.error == MarkersNotFound || r.error == KeyNotFound("SESSION")
    ensures r == Failure(MarkersNotFound) <==>
              LazyCapture(page.html, CryptoMarker).None? || LazyCapture(page.html, FlowKeyMarker).None?
    ensures LazyCapture(page.html, CryptoMarker).Some? && LazyCapture(page.html, FlowKeyMarker).Some? ==>
              (r.Success? <==> ExtractKV(JoinedSetCookie(page.setCookie), "SESSION").Some?)
    ensures r.Success? ==>
              && LazyCapture(page.html, CryptoMarker) == Some(r.value.cryptoKey)
              && LazyCapture(page.html, FlowKeyMarker) == Some(r.value.execution)
              && ExtractKV(JoinedSetCookie(page.setCookie), "SESSION") == Some(r.value.session)
  {
    var cryptoKey := LazyCapture(page.html, CryptoMarker);
    var execution := LazyCapture(page.html, FlowKeyMarker);
    if cryptoKey.None? || execution.None? then Failure(MarkersNotFound)
    else
      match ExtractKV(JoinedSetCookie(page.setCookie), "SESSION")
      case None => Failure(KeyNotFound("SESSION"))
      case Some(session) => Success(Secrets(cryptoKey.value, execution.value, session))
  }

  /** The form of step 2: both encryptions under the scraped key must
      succeed before anything is posted. */
  function EncryptedForm(username: string, password: string, enc: Cipher, secrets: Secrets): (r: Result<Form, TokenError>)
    ensures r.Failure? <==> enc(password, secrets.cryptoKey).None? || enc("{}", secrets.cryptoKey).None?
    ensures r.Failure? ==> r.error == CipherFailed
    ensures r.Success? ==>
              r.value == LoginForm(username, secrets.execution, secrets.cryptoKey,
                                   enc(password, secrets.cryptoKey).value, enc("{}", secrets.cryptoKey).value)
  {
    var encPassword :- enc(password, secrets.cryptoKey).ToResult(CipherFailed);
    var encCaptcha :- enc("{}", secrets.cryptoKey).ToResult(CipherFailed);
    Success(LoginForm(username, secrets.execution, secrets.cryptoKey, encPassword, encCaptcha))
  }

  /** After scraping: encrypt, then post the form and continue. */
  function AfterScrape(username: string, password: string, enc: Cipher,
                       secrets: Secrets, sso: SsoServer): (run: Run)
    ensures |run.sent| + 1 == RequestsBefore(run.outcome)
    ensures run.outcome != Failure(MarkersNotFound) && run.outcome != Failure(KeyNotFound("SESSION"))
    ensures run.outcome != Failure(RequestFailed(PageStage))
    ensures EncryptedForm(username, password, enc, secrets).Failure? ==> run == Run(Failure(CipherFailed), [])
    ensures EncryptedForm(username, password, enc, secrets).Success? ==>
              run == PostAndContinue(EncryptedForm(username, password, enc, secrets).value, secrets.session, sso)
  {
    match EncryptedForm(username, password, enc, secrets)
    case Failure(e) => Run(Failure(e), [])
    case Success(form) => PostAndContinue(form, secrets.session, sso)
  }

  /** After the login page arrived: scrape, then the rest of the flow. */
  function AfterPage(username: string, password: string, enc: Cipher,
                     page: LoginPage, sso: SsoServer): (run: Run)
    ensures |run.sent| + 1 == RequestsBefore(run.outcome)
    ensures run.outcome != Failure(RequestFailed(PageStage)) && run.outcome != Failure(EmptyCredentials)
    ensures ScrapePage(page).Failure? ==> run == Run(Failure(ScrapePage(page).error), [])
    ensures ScrapePage(page).Success? ==> run == AfterScrape(username, password, enc, ScrapePage(page).value, sso)
  {
    match ScrapePage(page)
    case Failure(e) => Run(Failure(e), [])
    case Success(secrets) => AfterScrape(username, password, enc, secrets, sso)
  }

  /** `getLearningCenterToken(username, password)`. */
  function AcquireToken(username: string, password: string, enc: Cipher, sso: SsoServer): (run: Run)
    ensures |run.sent| == RequestsBefore(run.outcome)
    ensures run.outcome == Failure(EmptyCredentials) <==> username == "" || password == ""
    ensures username != "" && password != "" ==>
              (run.outcome == Failure(RequestFailed(PageStage)) <==> Accepted(sso.page).None?)
    ensures username != "" && password != "" && Accepted(sso.page).Some? ==>
              var rest := AfterPage(username, password, enc, sso.page.payload, sso);
              run == Run(rest.outcome, [GetLoginPage] + rest.sent)
    ensures 1 <= |run.sent| ==> run.sent[0] == GetLoginPage
  {
    if username == "" || password == "" then Run(Failure(EmptyCredentials), [])
    else
      match Accepted(sso.page)
      case None => Run(Failure(RequestFailed(PageStage)), [GetLoginPage])
      case Some(page) =>
        var rest := AfterPage(username, password, enc, page, sso);
        Run(rest.outcome, [GetLoginPage] + rest.sent)
  }

  /** The login POST a run makes, when it gets that far: credentials given,
      page accepted, both markers and `SESSION` found, both encryptions done. */
  function LoginRequest(username: string, password: string, enc: Cipher, sso: SsoServer): (r: Option<Request>)
    ensures r.Some? ==> r.value.PostLogin?
    ensures r.Some? ==> && Accepted(sso.page).Some? && ScrapePage(sso.page.payload).Success?
                        && r.value.cookie == "SESSION=" + ScrapePage(sso.page.payload).value.session
  {
    if username == "" || password == "" || Accepted(sso.page).None? then None
    else
      match ScrapePage(sso.page.payload)
      case Failure(_) => None
      case Success(secrets) =>
        match EncryptedForm(username, password, enc, secrets)
        case Failure(_) => None
        case Success(form) => Some(PostLogin(form, "SESSION=" + secrets.session))
  }

  /** The authorize request a run makes, when it gets that far: the login
      POST accepted and a `SOURCEID_TGC` cookie in the jar, sent back as the
      `Cookie` header. */
  function AuthorizeRequest(username: string, password: string, enc: Cipher, sso: SsoServer): (r: Option<Request>)
    ensures r.Some? ==> LoginRequest(username, password, enc, sso).Some?
    ensures r.Some? ==> r.value.GetAuthorize?
  {
    match LoginRequest(username, password, enc, sso)
    case None => None
    case Some(post) =>
      match Accepted(sso.postLogin(post.form, post.cookie))
      case None => None
      case Some(jar) =>
        match FindCookie(jar, TgcName)
        case None => None
        case Some(tgc) => Some(GetAuthorize(TgcHeader(tgc)))
  }

  /** The authorize request sends back, as `SOURCEID_TGC=<value>`, the first
      such cookie of the jar the accepted login POST left. */
  lemma AuthorizeCarriesTgc(username: string, password: string, enc: Cipher, sso: SsoServer)
    ensures AuthorizeRequest(username, password, enc, sso).Some? ==>
              var post := LoginRequest(username, password, enc, sso).value;
              && Accepted(sso.postLogin(post.form, post.cookie)).Some?
              && var jar := sso.postLogin(post.form, post.cookie).payload;
                 && FindCookie(jar, TgcName).Some?
                 && AuthorizeRequest(username, password, enc, sso).value.cookie
                    == "SOURCEID_TGC=" + FindCookie(jar, TgcName).value.value
  {
  }

  /** Once the page arrived, the scraping errors are exactly those of
      `ScrapePage`: the markers first, then the session cookie. Later steps
      never report them. */
  lemma ScrapeStageDecides(username: string, password: string, enc: Cipher, sso: SsoServer, e: TokenError)
    requires username != "" && password != ""
    requires Accepted(sso.page).Some?
    requires e == MarkersNotFound || e == KeyNotFound("SESSION")
    ensures AcquireToken(username, password, enc, sso).outcome == Failure(e)
            <==> ScrapePage(sso.page.payload) == Failure(e)
  {
    var page := sso.page.payload;
    var rest := AfterPage(username, password, enc, page, sso);
    assert AcquireToken(username, password, enc, sso).outcome == rest.outcome;
    if ScrapePage(page).Success? {
      assert RequestsBefore(rest.outcome) >= 2 || rest.outcome == Failure(CipherFailed);
    }
  }

  /** A login page without `Set-Cookie` headers ends the flow at the session
      step, once both markers were found. */
  lemma MissingSetCookieFails(username: string, password: string, enc: Cipher, sso: SsoServer)
    ensures username != "" && password != ""
            && Accepted(sso.page).Some? && sso.page.payload.setCookie.None?
            && LazyCapture(sso.page.payload.html, CryptoMarker).Some?
            && LazyCapture(sso.page.payload.html, FlowKeyMarker).Some?
            ==> && AcquireToken(username, password, enc, sso).outcome == Failure(KeyNotFound("SESSION"))
                && AcquireToken(username, password, enc, sso).sent == [GetLoginPage]
  {
    if username != "" && password != "" && Accepted(sso.page).Some? && sso.page.payload.setCookie.None? {
      assert ExtractKV("", "SESSION").None?;
      ScrapeStageDecides(username, password, enc, sso, KeyNotFound("SESSION"));
    }
  }

  /** A key the cipher rejects stops the flow after the page request, before
      anything is posted; exactly then does the flow report `CipherFailed`. */
  lemma CipherStageDecides(username: string, password: string, enc: Cipher, sso: SsoServer)
    ensures var run := AcquireToken(username, password, enc, sso);
            run.outcome == Failure(CipherFailed) <==>
              && username != "" && password != ""
              && Accepted(sso.page).Some? && ScrapePage(sso.page.payload).Success?
              && EncryptedForm(username, password, enc, ScrapePage(sso.page.payload).value).Failure?
    ensures AcquireToken(username, password, enc, sso).outcome == Failure(CipherFailed) ==>
              AcquireToken(username, password, enc, sso).sent == [GetLoginPage]
  {
    var run := AcquireToken(username, password, enc, sso);
    if username != "" && password != "" && Accepted(sso.page).Some? {
      var rest := AfterPage(username, password, enc, sso.page.payload, sso);
      assert run == Run(rest.outcome, [GetLoginPage] + rest.sent);
    }
  }

  /** The flow reaches the login POST exactly when it issues a second
      request, and that request is the one `LoginRequest` names. The POST
      fails the flow with `RequestFailed(LoginStage)` exactly when its reply
      is not accepted. */
  lemma LoginStageDecides(username: string, password: string, enc: Cipher, sso: SsoServer)
    ensures LoginRequest(username, password, enc, sso).Some? <==> 2 <= |AcquireToken(username, password, enc, sso).sent|
    ensures LoginRequest(username, password, enc, sso).Some? ==>
              var post := LoginRequest(username, password, enc, sso).value;
              var run := AcquireToken(username, password, enc, sso);
              && run.sent[1] == post
              && (run.outcome == Failure(RequestFailed(LoginStage)) <==> Accepted(sso.postLogin(post.form, post.cookie)).None?)
  {
    var run := AcquireToken(username, password, enc, sso);
    if username != "" && password != "" && Accepted(sso.page).Some? {
      var rest := AfterPage(username, password, enc, sso.page.payload, sso);
      assert run == Run(rest.outcome, [GetLoginPage] + rest.sent);
    }
  }

  /** Once the login POST is accepted, the run is the page request, that
      POST, and whatever the jar leads to. */
  lemma FlowAfterLogin(username: string, password: string, enc: Cipher, sso: SsoServer)
    ensures LoginRequest(username, password, enc, sso).Some? ==>
              var post := LoginRequest(username, password, enc, sso).value;
              Accepted(sso.postLogin(post.form, post.cookie)).Some? ==>
              var rest := AfterLogin(sso.postLogin(post.form, post.cookie).payload, sso);
              AcquireToken(username, password, enc, sso) == Run(rest.outcome, [GetLoginPage, post] + rest.sent)
  {
    if LoginRequest(username, password, enc, sso).Some? {
      var secrets := ScrapePage(sso.page.payload).value;
      var form := EncryptedForm(username, password, enc, secrets).value;
      var post := PostAndContinue(form, secrets.session, sso);
      assert AcquireToken(username, password, enc, sso) == Run(post.outcome, [GetLoginPage] + post.sent);
    }
  }

  /** Once the login POST is accepted, only the cookie jar decides whether
      the credentials were wrong: the POST's status and body play no part. */
  lemma TgcDecidesCredentials(username: string, password: string, enc: Cipher, sso: SsoServer)
    ensures LoginRequest(username, password, enc, sso).Some? ==>
              var post := LoginRequest(username, password, enc, sso).value;
              Accepted(sso.postLogin(post.form, post.cookie)).Some? ==>
              var jar := sso.postLogin(post.form, post.cookie).payload;
              (AcquireToken(username, password, enc, sso).outcome == Failure(WrongCredentials) <==>
                 forall k :: 0 <= k < |jar| ==> jar[k].key != TgcName)
  {
    FlowAfterLogin(username, password, enc, sso);
    if LoginRequest(username, password, enc, sso).Some? {
      var post := LoginRequest(username, password, enc, sso).value;
      if Accepted(sso.postLogin(post.form, post.cookie)).Some? {
        var jar := sso.postLogin(post.form, post.cookie).payload;
        var rest := AfterLogin(jar, sso);
        assert AcquireToken(username, password, enc, sso).outcome == rest.outcome;
      }
    }
  }

  /** The flow reaches the authorize request exactly when it issues a third
      request; that request carries `SOURCEID_TGC=<value>` of the first such
      cookie in the jar. It fails the flow with
      `RequestFailed(AuthorizeStage)` exactly when its reply is not accepted,
      and otherwise the landing decides the outcome. */
  lemma AuthorizeStageDecides(username: string, password: string, enc: Cipher, sso: SsoServer)
    ensures AuthorizeRequest(username, password, enc, sso).Some? <==> |AcquireToken(username, password, enc, sso).sent| == 3
    ensures AuthorizeRequest(username, password, enc, sso).Some? ==>
              var get := AuthorizeRequest(username, password, enc, sso).value;
              var run := AcquireToken(username, password, enc, sso);
              && run.sent == [GetLoginPage, LoginRequest(username, password, enc, sso).value, get]
              && (run.outcome == Failure(RequestFailed(AuthorizeStage)) <==> Accepted(sso.authorize(get.cookie)).None?)
              && (Accepted(sso.authorize(get.cookie)).Some? ==> run.outcome == TokenFromLanding(sso.authorize(get.cookie).payload))
  {
    LoginStageDecides(username, password, enc, sso);
    FlowAfterLogin(username, password, enc, sso);
    var run := AcquireToken(username, password, enc, sso);
    if LoginRequest(username, password, enc, sso).Some? {
      var post := LoginRequest(username, password, enc, sso).value;
      if Accepted(sso.postLogin(post.form, post.cookie)).Some? {
        var jar := sso.postLogin(post.form, post.cookie).payload;
        var rest := AfterLogin(jar, sso);
        assert run == Run(rest.outcome, [GetLoginPage, post] + rest.sent);
        if FindCookie(jar, TgcName).Some? {
          var get := GetAuthorize(TgcHeader(FindCookie(jar, TgcName).value));
          assert AuthorizeRequest(username, password, enc, sso) == Some(get);
          assert rest.sent == [get];
        } else {
          assert AuthorizeRequest(username, password, enc, sso).None?;
          assert rest.sent == [];
        }
      } else {
        assert AuthorizeRequest(username, password, enc, sso).None?;
        assert run.outcome == Failure(RequestFailed(LoginStage));
      }
    }
  }

  /** When every step passes, the flow returns `extractKV(finalUrl, "token")`;
      when the landed URL lacks `token=`, it reports exactly that. */
  lemma HappyPath(username: string, password: string, enc: Cipher, sso: SsoServer)
    ensures AuthorizeRequest(username, password, enc, sso).Some? ==>
              var get := AuthorizeRequest(username, password, enc, sso).value;
              Accepted(sso.authorize(get.cookie)).Some? ==>
              var url := sso.authorize(get.cookie).payload.GetOr(AuthUrl);
              && (ExtractKV(url, "token").Some? ==>
                    AcquireToken(username, password, enc, sso).outcome == Success(ExtractKV(url, "token").value))
              && (!Contains(url, "token=") <==> AcquireToken(username, password, enc, sso).outcome == Failure(TokenNotInUrl))
  {
    AuthorizeStageDecides(username, password, enc, sso);
  }

  /** A token is only ever returned out of the URL the OAuth redirect landed
      on, and only when that URL contains `token=`; it is non-empty and holds
      no `;` or `&`. */
  lemma TokenComesFromFinalUrl(username: string, password: string, enc: Cipher, sso: SsoServer)
    ensures AcquireToken(username, password, enc, sso).outcome.Success? ==>
            && AuthorizeRequest(username, password, enc, sso).Some?
            && var get := AuthorizeRequest(username, password, enc, sso).value;
               var t := AcquireToken(username, password, enc, sso).outcome.value;
               && AcquireToken(username, password, enc, sso).sent[2] == get
               && Accepted(sso.authorize(get.cookie)).Some?
               && var url := sso.authorize(get.cookie).payload.GetOr(AuthUrl);
                  && Contains(url, "token=")
                  && ExtractKV(url, "token") == Some(t)
                  && |t| > 0
                  && forall k :: 0 <= k < |t| ==> t[k] != ';' && t[k] != '&'
  {
    var run := AcquireToken(username, password, enc, sso);
    AuthorizeStageDecides(username, password, enc, sso);
    if run.outcome.Success? {
      var get := AuthorizeRequest(username, password, enc, sso).value;
      var url := sso.authorize(get.cookie).payload.GetOr(AuthUrl);
      assert run.outcome == TokenFromLanding(sso.authorize(get.cookie).payload);
      ExtractedValueShape(url, "token");
    }
  }
}

=== FILE: types.dfy ===
/** The data shapes the composables and stores exchange: seat records and
    their lookup tables, the two floors, the request payloads and the
    replies of the seat and token services. */
module SeatTypes {

  /** Map coordinates of a seat; the model never inspects them. */
  datatype Position = Position(x: real, y: real)

  /** One seat of the floor map. An empty field is an absent one. */
  datatype Seat = Seat(spaceName: string, spaceId: string, spaceCode: string, mapName: string, position: Position)

  /** The four indexes built from a floor's seat list. */
  datatype Lookup = Lookup(
    bySpaceName: map<string, Seat>,
    bySpaceCode: map<string, Seat>,
    byMapName: map<string, Seat>,
    bySpaceId: map<string, Seat>)

  datatype Floor = F4 | F5

  /** The floor's name as the application writes it. */
  function FloorName(f: Floor): string {
    match f
    case F4 => "4F"
    case F5 => "5F"
  }
}

module ApiTypes {
  import opened Wrappers
  import opened Text

  /** The outcome of one call to the seat service: either the call was
      rejected (transport failure or an error status) with the message the
      client produced, or the server answered with a body `{code, msg, ...}`. */
  datatype ApiReply<T> = Rejected(message: string) | Answered(code: string, msg: string, body: T) {

    /** The server reported success. */
    predicate Ok() {
      Answered? && code == "0"
    }
  }

  /** The message a composable shows after a failed call: a rejection keeps
      its message; an answer with a code other than `'0'` shows the server's
      `msg`, or `fallback` when that is empty. */
  function FailureText<T>(reply: ApiReply<T>, fallback: string): (m: string)
    requires !reply.Ok()
    ensures reply.Rejected? ==> m == reply.message
    ensures reply.Answered? && reply.msg != "" ==> m == reply.msg
    ensures reply.Answered? && reply.msg == "" ==> m == fallback
  {
    match reply
    case Rejected(message) => message
    case Answered(_, msg, _) => Or(msg, fallback)
  }

  /** A step of a composable or store: the state after it, and the request
      it sent (`None` when it sent nothing). */
  datatype Step<S, P> = Step(state: S, sent: Option<P>)

  /** Body of `queryStationStatusByTime`. `parentId` is always `null`. */
  datatype SeatQueryPayload = SeatQueryPayload(
    beginTime: string, endTime: string, floorLike: string, parentId: Option<int>, region: int)

  /** Body of `addSpaceAppoint`. */
  datatype AppointPayload = AppointPayload(spaceId: string, beginTime: string, endTime: string, date: string)

  /** Body of `queryMyAppoint`. */
  datatype HistoryPayload = HistoryPayload(currentPage: int, pageSize: int)

  /** Body sent to the token service. */
  datatype LoginPayload = LoginPayload(username: string, password: string)

  /** Reply of the token service: rejected with a message, or answered with
      an optional `token` field. */
  datatype LoginReply = LoginRejected(message: string) | LoginAnswered(token: Option<string>)
}

=== FILE: wrappers.dfy ===
/** Option and Result, the failure-compatible wrappers the rest of the model uses
    for JavaScript's `undefined`/`null` values and for thrown errors. */
module Wrappers {

  /** `None` stands for `undefined` or `null`. */
  datatype Option<+T> = None | Some(value: T) {

    predicate IsFailure() {
      None?
    }

    function PropagateFailure<U>(): Option<U>
      requires None?
    {
      None
    }

    function Extract(): T
      requires Some?
    {
      value
    }

    /** The value, or `default` when absent: JavaScript's `x ?? default`. */
    function GetOr(default: T): T {
      match this
      case Some(v) => v
      case None => default
    }

    /** A missing value as the error `error`. */
    function ToResult<E>(error: E): Result<T, E> {
      match this
      case Some(v) => Success(v)
      case None => Failure(error)
    }
  }

  /** `Failure` stands for a thrown error. */
  datatype Result<+R, +E> = Success(value: R) | Failure(error: E) {

    predicate IsFailure() {
      Failure?
    }

    function PropagateFailure<U>(): Result<U, E>
      requires Failure?
    {
      Failure(error)
    }

    function Extract(): R
      requires Success?
    {
      value
    }
  }
}
